=== FILE: README.md ===
# Dex-paid token detection, modelled in Dafny

The two bots of this repository work through the DexScreener "latest token
profiles" feed. `TEST_BOT.py` polls it once a second from its `main` loop.
`collection_bot.py` defines the same fetch but has no `main` and no polling
loop, so only its `inspect_token_profiles` is modelled. For every profile on the Solana chain that has not been seen within the
last hour, they ask the orders endpoint whether the token paid for a
token-profile listing (`is_dex_paid`). They fetch the token's pairs
(`get_token_pairs`) and record the first pair, then start a thread that samples
the token's price once a minute for six hours (`track_price_changes`).

- `TEST_BOT.py` writes to a Postgres `tokens` table. It upserts by name and
  keeps a first-recorded market cap and an all-time high. Prices go to a
  `prices` table.
- `collection_bot.py` appends to `dex_paid_tracked_data.csv` and means to skip
  names it has already logged. As written, the file is created without a header
  line, so from a fresh start the second detection raises `KeyError`. Prices go
  to `price_tracking_data.csv`.

The model is pure functions over immutable data:

| module | models |
|---|---|
| `PyJson` | The decoded JSON values, plus the Python builtins the bots apply to them. These are `.get`, truthiness, `for` over a value, `int()` and `>`, each with the exception Python raises. |
| `Retry` | `retry_request`, against a list of attempt outcomes. |
| `DexPaid` | `is_dex_paid`. |
| `TokenPairs` | Both bots' `get_token_pairs`. |
| `TtlCache` | The `already_paid_dex_tokens` TTL cache. |
| `TokenStore` | The Postgres tables and their statements. |
| `CsvStore` | The CSV bot's `save_token_data`. |
| `PriceTracker` | Both samplers, as a fold over ticks. |
| `Inspection` | `inspect_token_profiles` of both bots, and one iteration of `TEST_BOT.py`'s `main`. |

The world outside the process enters as parameters:

- the answers the network gives to each request attempt;
- the result of each step's orders call and pairs call;
- the time at which each step or tick runs.

An exception that the source does not catch is a `Raise` value. It ends the
loop that raised it, and the state reached up to that point is kept.

## Model

| member | source | states |
|---|---|---|
| PyJson.Get | TEST_BOT.py:115-122 | `.get` succeeds exactly on a dict; anything else raises AttributeError |
| PyJson.IterForGet | TEST_BOT.py:88-91 | a `for` loop whose body calls `.get` visits a list's items, nothing for a falsy value, and otherwise raises before the body runs |
| PyJson.PyInt | TEST_BOT.py:224-225 | `int()` returns a number unchanged and a boolean as 1 or 0, rejects None, lists and dicts with TypeError, accepts a string exactly when it is a signed decimal literal, and raises ValueError for any other string |
| PyJson.DigitsRoundTrip | TEST_BOT.py:224-225 | the digits `str` writes for a natural number read back as that number |
| PyJson.PyIntDecimal | TEST_BOT.py:224-225 | `int(str(n)) == n` for every integer `n`, so a decimal string reads as the number it spells |
| PyJson.GreaterThan | TEST_BOT.py:135 | comparing with an integer bound gives the numeric answer for numbers and compares True as 1 and False as 0, and succeeds exactly for numbers and booleans |
| Retry.RetryFrom | TEST_BOT.py:69-76 | after `k` failed attempts, the result is the body of the first later answered attempt, `a+1` requests and `a*delay` seconds slept; with no answer it is None after `retries` attempts |
| Retry.Retry | TEST_BOT.py:68-77 | `retry_request` sends at most `retries` requests and returns the first answered body, or None after all of them fail; a non-positive `retries` sends nothing |
| Retry.FailTwiceThenAnswer | TEST_BOT.py:68-77 | two failures and then an answer: three requests, ten seconds slept, and the answer returned |
| Retry.AlwaysFailing | collection_bot.py:25-34 | a server that never answers yields None after exactly `retries` attempts and `retries*delay` seconds |
| Retry.LateAnswerIgnored | TEST_BOT.py:69 | an answer arriving after the last allowed attempt is never seen |
| DexPaid.SearchFrom | TEST_BOT.py:90-93 | the scan returns the first approved token-profile order; it raises AttributeError at the first non-dict reached before any match; it is unpaid when no order matches |
| DexPaid.IsDexPaid | TEST_BOT.py:85-93 | a falsy response is unpaid; a list gives the first approved order or an AttributeError; a paid answer carries an approved order and an unpaid one carries None |
| DexPaid.FirstMatchWins | collection_bot.py:47-49 | orders after the first approved one do not change the answer |
| TokenPairs.Nested | TEST_BOT.py:115 | `d.get(key, {}).get(sub)` succeeds exactly when `d` is a dict whose `key` is missing or holds a dict |
| TokenPairs.NormalizePair | TEST_BOT.py:114-122 | a pair normalises exactly when it and its nested objects are dicts or absent; it gains the six derived keys with their defaults and keeps every other key |
| TokenPairs.NormalizePairCsv | collection_bot.py:59-63 | the CSV bot's version adds four derived keys; `volume24h` defaults to None and `liquidity` is copied raw |
| TokenPairs.NormalizeAll | TEST_BOT.py:113-124 | the loop normalises every pair in place and in order; the first pair that cannot be normalised raises AttributeError |
| TokenPairs.GetTokenPairs | TEST_BOT.py:96-127 | a falsy or non-dict response, a missing `pairs` key, or a non-list or empty `pairs` gives []; otherwise the normalised pairs of the first list element or of the dict |
| TokenPairs.GetTokenPairsCsv | collection_bot.py:53-64 | a falsy response gives []; a truthy non-dict raises AttributeError; a null `pairs` raises TypeError; otherwise the normalised `pairs` list |
| TokenPairs.PairsKeepPosition | TEST_BOT.py:113-124 | the `i`-th returned pair is the `i`-th source pair, normalised |
| TokenPairs.DefaultsWhenAbsent | TEST_BOT.py:115-122 | a pair without the nested objects gets volume, buyers, sellers and holders 0, liquidity "Unknown", and no socials |
| TokenPairs.WrappedLikeObject | TEST_BOT.py:104-105 | a list response is read as its first element |
| TokenPairs.BareListYieldsNothing | TEST_BOT.py:104-111 | a bare list of pairs unwraps to one pair, which has no `pairs` key, so nothing comes back |
| TokenPairs.CsvRaisesOnList | collection_bot.py:56-58 | the CSV bot raises on a list response that the Postgres bot accepts, with every pair returned |
| TtlCache.Insert | TEST_BOT.py:217 | writing a key makes it present for exactly the next TTL seconds and leaves every other key's presence unchanged |
| TtlCache.ExpiryBoundary | TEST_BOT.py:28 | an entry is present 3599 seconds after its write and absent from 3600 seconds on |
| TokenStore.FreshRow | TEST_BOT.py:233-270 | a first insert starts the first-recorded market cap and the all-time high at the current market cap, stores the bound symbol, timestamps, holders, volume and socials flag, and is logged at the current time |
| TokenStore.Refresh | TEST_BOT.py:254-258 | on conflict, market cap, holders and volume are replaced; the all-time high becomes the larger of the old one and the new market cap, or the new market cap when the stored high is NULL; all other columns are kept |
| TokenStore.Upsert | TEST_BOT.py:238-276 | a new name inserts a fresh row; a stored name with a numeric market cap in the INTEGER range updates it; a NULL name adds a row that never conflicts; a market cap outside the 32-bit range of the INTEGER column (line 45) or anything else unbindable fails and leaves the tables unchanged; the prices table is never touched |
| TokenStore.GrowsTransitive | TEST_BOT.py:254-256 | row evolution (rows stay, write-once columns kept, all-time highs not falling) composes over successive writes |
| TokenStore.UpsertGrows | TEST_BOT.py:245-256 | an upsert keeps every stored row, never lowers an all-time high, and leaves the written row's high covering its market cap |
| TokenStore.UpsertKeepsAthCover | TEST_BOT.py:245-256 | if every row's all-time high covers its market cap, that still holds after the upsert |
| TokenStore.SaveTokenData | TEST_BOT.py:131-172 | it raises exactly when `marketCap` is neither a number nor a boolean; above the ceiling or for a name already stored nothing changes; otherwise at most one row with the five named columns is added, and it is added (under the name, or as a nameless row) exactly when the market cap fits the INTEGER column and the other cells bind |
| TokenStore.SaveThenSkips | TEST_BOT.py:146-150 | once a name has been inserted, the row stays as written and a second save under that name changes nothing |
| TokenStore.CeilingRow | TEST_BOT.py:153-162 | the row `save_token_data` inserts carries the given symbol, numeric market cap and both timestamps; its first-recorded market cap, all-time high, holders, volume and socials are NULL; it is logged at the current time |
| TokenStore.UpsertOn | TEST_BOT.py:245-276 | on a table missing a column the live loop's statements name, or without a unique token name, the write fails, is caught, and changes nothing |
| TokenStore.InitDbSchemaStoresNothing | TEST_BOT.py:41-49 | as written, the table `init_db` creates lacks `first_recorded_market_cap`, so every upsert fails and no token is stored |
| TokenStore.ExpectedSchemaUpserts | TEST_BOT.py:251-270 | corrected: on the table the upsert is written for, the write is the modelled upsert, and a new bindable token gets its fresh row |
| TokenStore.CeilingIsStrict | TEST_BOT.py:135 | a market cap of exactly 100000 is stored, with that market cap, and 100001 is skipped |
| TokenStore.InsertPrice | TEST_BOT.py:188-195 | the insert only ever appends; one row with the given name, address, time and price is appended exactly when the name and address bind and the price is NULL, a number or decimal text; the placeholder "Unknown" never adds a row |
| TokenStore.UnknownIsNotReal | TEST_BOT.py:58 | the placeholder "Unknown" is not a value the REAL price column accepts |
| CsvStore.ColumnIndex | collection_bot.py:70 | the column lookup finds the first header cell with that name, and finds none exactly when the name is not in the header |
| CsvStore.NameColumn | collection_bot.py:69-70 | reading the name column raises EmptyDataError for an empty file and KeyError when the first line has no "Token Name"; otherwise it returns one cell per data line |
| CsvStore.DataRow | collection_bot.py:78-83 | the appended line has six cells and starts with the token name |
| CsvStore.SaveTokenData | collection_bot.py:67-83 | as written: a missing file gets a single line with no header; an empty or header-less file raises; a listed name changes nothing; otherwise one line is appended |
| CsvStore.SecondSaveRaises | collection_bot.py:67-83 | as written, the second save after a fresh start raises KeyError |
| CsvStore.HeaderedSaveDeduplicates | collection_bot.py:67-83 | on a file that starts with the header and has distinct names, the corrected save never raises, skips exactly the names already logged, appends otherwise, and keeps the file headered and duplicate-free |
| PriceTracker.FloorDiv | TEST_BOT.py:178 | `//` raises ZeroDivisionError exactly for a zero divisor, and otherwise returns the floor of the quotient |
| PriceTracker.DefaultChecks | TEST_BOT.py:175-178 | with the defaults of six hours and one minute the sampler ticks 360 times |
| PriceTracker.Fold | TEST_BOT.py:179-199 | a run of `n` ticks completes at most `n`, and completes all `n` exactly when no tick raised |
| PriceTracker.RunTicks | TEST_BOT.py:179 | the sampling loop computes the reference fold, stopping at the first exception |
| PriceTracker.StoppedStaysStopped | TEST_BOT.py:180 | once a tick raised, later ticks change nothing |
| PriceTracker.Tick | TEST_BOT.py:180-197 | a tick raises exactly when its pairs call raises, and otherwise stores at most one row, with this token's name, address, time and price |
| PriceTracker.RunSampler | TEST_BOT.py:175-199 | an interval of 0 raises before any tick; otherwise `total_checks` ticks, or fewer when a pairs call raises; at most one row per tick, each naming the sampled token |
| PriceTracker.PgRowsNamed | TEST_BOT.py:188-191 | a Postgres run stores at most one row per completed tick, each with the sampled name and address |
| PriceTracker.UnknownPriceDropsTick | TEST_BOT.py:181-195 | as written, a tick that finds no pairs stores no row |
| PriceTracker.NullPriceKeepsTick | TEST_BOT.py:181-195 | corrected with NULL for a missing price, and given that every price the pairs report fits the REAL column: every completed tick stores exactly one row, and row `j` is tick `j`'s name, address, time and price (the first pair's `priceUsd`, or NULL) |
| PriceTracker.PriceLine | collection_bot.py:97-106 | a price line has four cells: the token name, the address, the tick's time, and the first pair's `priceUsd` or "Unknown" when there are no pairs |
| PriceTracker.RunCsvSampler | collection_bot.py:86-108 | the CSV sampler writes the header once, first, only when the file was missing, then one line per completed tick, the `k`-th of them being tick `k`'s price line |
| PriceTracker.CsvLines | collection_bot.py:101-106 | a CSV run's lines are one per tick plus one header line for a missing file, and the data line after the header for tick `k` is the price line of tick `k`'s pairs at tick `k`'s time |
| PriceTracker.CsvShape | collection_bot.py:101-106 | the line count and the header placement of a CSV run |
| PriceTracker.CsvLineAt | collection_bot.py:97-106 | tick `k` of a CSV run completed on pairs, and its line sits right after the lines of the earlier ticks |
| PriceTracker.FoldPrefix | TEST_BOT.py:179 | the rows of a shorter run are a prefix of the rows of a longer one |
| PriceTracker.CompletedTick | TEST_BOT.py:179-180 | a tick counted as completed did not raise, and its rows follow those of the ticks before it |
| Inspection.Screen | TEST_BOT.py:206-221 | every profile is counted; a non-dict raises AttributeError; a detection implies an on-target, hashable, uncached address that is paid and has pairs, and the first pair is used; the cache is written before the pairs call |
| Inspection.Timestamp | TEST_BOT.py:224 | a falsy timestamp reads as None and a numeric one as itself; a truthy one raises exactly when `int()` raises (ValueError for a non-literal string, TypeError for a list or dict) and otherwise reads as `int()`'s value; the result is None or a number |
| Inspection.PaymentTime | TEST_BOT.py:225 | the payment time is None for a falsy order and for a falsy timestamp; a truthy non-dict order raises AttributeError |
| Inspection.BaseToken | TEST_BOT.py:227 | reading a base-token field is the nested `.get("baseToken", {}).get(sub)` reading of the pair, so it succeeds exactly when `baseToken` is a dict or absent |
| Inspection.TokenValuesOf | TEST_BOT.py:224-231 | the upsert's values are read from the pair with the source's defaults; reading raises exactly when a timestamp or the base token cannot be read |
| Inspection.TokenData | collection_bot.py:127-133 | the CSV bot's record has the five keys read from the pair and the order; it raises exactly when the base token or the order is not a dict |
| Inspection.Record | TEST_BOT.py:238-282 | a detection that does not raise starts one sampler for the address and counts the detection; the Postgres bot's tables receive the upsert; the CSV bot's file receives the as-written save, and the detection raises exactly when reading the record or that save raises; a raise leaves the state unchanged |
| Inspection.Step | TEST_BOT.py:206-282 | one iteration counts the profile, starts at most one sampler and moves the sniped counter with it; without a sampler the store and latest time are unchanged |
| Inspection.Inspect | TEST_BOT.py:203-206 | a pass counts each visited profile, and all of them when nothing raised; it starts at most one sampler per profile; sniped grows by the number of samplers started |
| Inspection.InspectTokenProfiles | TEST_BOT.py:203-282 | the loop computes the reference pass |
| Inspection.NextStep | TEST_BOT.py:206 | a pass that has not raised continues with the next profile |
| Inspection.RaisedPassStops | TEST_BOT.py:206 | profiles after the one that raised are never visited |
| Inspection.Poll | TEST_BOT.py:287-290 | a falsy feed does nothing; a list is inspected; a non-empty string or dict counts one profile and raises AttributeError; a number or True raises TypeError |
| Inspection.PollIteratesFeed | TEST_BOT.py:285-291 | one iteration of `main` is the pass over what Python's `for` visits: a list's items, a string's characters, a dict's keys; a number or True cannot be iterated |
| Inspection.FirstStringRaises | TEST_BOT.py:206-208 | a pass whose first profile is a string counts it and stops with AttributeError |
| Inspection.OffTargetSkips | TEST_BOT.py:211-212 | a profile without an address or chain, or on another chain, is only counted |
| Inspection.CachedSkips | TEST_BOT.py:213 | a profile whose address is cached is only counted; no call is made |
| Inspection.UnpaidStaysEligible | TEST_BOT.py:214-216 | an unpaid token is looked up but not cached |
| Inspection.CachedBeforePairs | TEST_BOT.py:216-220 | a paid token stays cached even when its pairs call raises or returns nothing, and then nothing is stored and no sampler starts |
| Inspection.TablesSnipe | TEST_BOT.py:221-282 | on a paid token with pairs, the Postgres bot upserts the first pair's values, starts a sampler for the address and name, and counts the detection at the step's time |
| Inspection.FilesSnipe | collection_bot.py:121-137 | on a paid token with pairs, with no data file yet or one that carries its header and distinct names, the as-written save does not raise and a sampler starts; a missing file gets the one header-less line, and a headered file stays headered and duplicate-free |
| Inspection.FreshFileSecondDetectionRaises | collection_bot.py:67-83 | from a fresh start the first CSV detection is stored, and the second one raises KeyError and leaves the state of the first |
| Inspection.StepCache | TEST_BOT.py:213-217 | a step leaves the cache alone or writes its own address; a started sampler belongs to an address that was not cached and now is |
| Inspection.StepGrows | TEST_BOT.py:245-256 | one step only lets the tables evolve, and all-time highs keep covering market caps |
| Inspection.PassGrows | TEST_BOT.py:206-276 | a whole pass only lets the tables evolve, and all-time highs keep covering market caps |
| Inspection.PassKeepsFile | collection_bot.py:113-134 | over a pass that starts from an existing data file with its header, the file keeps its header and never logs a name twice |
| Inspection.StepKeepsJobs | TEST_BOT.py:213-217 | a step within the TTL keeps the samplers started since then cached and for distinct addresses |
| Inspection.NoDoubleSnipe | TEST_BOT.py:213-279 | in a pass shorter than the TTL, no address gets two samplers |
| Inspection.ScenarioIsPaid | TEST_BOT.py:85-93 | the scenario's order list is paid with its approved order |
| Inspection.ScenarioPairs | TEST_BOT.py:111-124 | the scenario's pairs response yields its one pair, normalised |
| Inspection.ScenarioNormalizes | TEST_BOT.py:114-122 | the scenario's pair keeps its name, symbol and market cap and gets zero holders and volume and no socials |
| Inspection.ScenarioReadsValues | TEST_BOT.py:224-231 | a pair of that shape reads as name "Foo", symbol "FOO", market cap `mc` and the order's payment time |
| Inspection.ScenarioOnTarget | TEST_BOT.py:208-211 | the scenario's profile passes the chain filter with address "Tkn1" |
| Inspection.ScenarioUpsert | TEST_BOT.py:233-256 | for a new name and `mc` in the INTEGER range, the upsert inserts a row whose first market cap and all-time high are `mc` |
| Inspection.ScenarioOutOfRange | TEST_BOT.py:45 | a market cap outside the INTEGER range makes the upsert fail and leaves the tables unchanged |
| Inspection.PaidTokenStored | TEST_BOT.py:206-282 | for `mc` in the INTEGER range, any world answering with the scenario's order and pair stores "Foo" with every column the upsert binds, starts one sampler and counts one detection |
| Inspection.DetectionScenario | TEST_BOT.py:203-282 | end to end, one paid profile with a new name and `mc` in the INTEGER range inserts one row with market cap, first market cap and all-time high `mc`, symbol "FOO", the payment time, no pair creation time, zero holders and volume, no socials and the pass's time, caches the address and starts one sampler for ("Tkn1", "Foo"); no market-cap ceiling applies |
| Inspection.OutOfRangeCapNotStored | TEST_BOT.py:238-282 | end to end, a market cap outside the INTEGER range stores nothing, yet the detection is counted and its sampler starts |
| Inspection.ScenarioPassCaches | TEST_BOT.py:213-217 | a pass over the scenario's profile with a paid answer caches "Tkn1" at the pass's time, whatever the pairs call and the store do |
| Inspection.ScenarioPassSkips | TEST_BOT.py:213 | a pass over the scenario's profile while "Tkn1" is cached only counts it |
| Inspection.RerunShortCircuits | TEST_BOT.py:213-217 | for any market cap and whatever is stored, the same profile within the TTL is only counted on the rerun; no call is made and nothing is stored |

## Left out

- Floating point: prices and market caps are integers or strings, and `/ 1000` of a timestamp is not computed.
- Timestamps are kept as the milliseconds they come from. `utcfromtimestamp` range errors and `strftime` formatting are not modelled.
- HTTP and JSON decoding: each request attempt is either a decoded body or a failure. Timeouts and status codes all collapse into that failure.
- Sleeps and real time: the model takes one instant per profile and one per tick, supplied as parameters.
- Threads: a started sampler is recorded as a `Job`. The sampler runs are modelled separately and are not linked to the job or interleaved with the loop.
- `TEST_BOT.py`'s `main` loop runs forever; the model covers one iteration of it (`Inspection.Poll`). `collection_bot.py` has no such loop, and nothing there calls its `get_latest_token_profiles`.
- `TTLCache` eviction at `maxsize` 500000 is not modelled: no entry is ever evicted early.
- Database connections: a failed `psycopg2.connect` is not modelled. Neither is the unbound `conn` or `cursor` in a `finally` after one.
- `init_db` creates a `tokens` table that lacks the columns the upsert names, and it has no unique key for `ON CONFLICT` (see "## Findings"). Apart from `TokenStore.InitDbSchemaStoresNothing`, the model assumes the schema the upsert expects, keyed by name.
- Market-cap values are checked against the 32-bit INTEGER range of the `market_cap` column. `init_db` declares none of `first_recorded_market_cap`, `all_time_high`, `holders`, `volume_24h` or `has_socials`, so their types are unknown. The model treats the first two as integers, since they are copied from the market cap, and leaves the other three untyped, binding any scalar.
- The corrected header-writing CSV save (`CsvStore.SaveTokenDataWithHeader`) is proved about on its own; the detection loop uses the save as written.
- Postgres coercion of numeric strings into INTEGER columns is not modelled: only numbers and NULL bind into `market_cap`. REAL accepts NULL, numbers and plain decimal text; exponents, `NaN` and `Infinity` are not modelled.
- InsertPrice: REAL's range is not modelled. Postgres rejects magnitudes beyond about 3.4e38 as out of range for type real, but `TokenStore.FitsReal` accepts every number and every decimal text, so the model appends a row that Postgres would refuse.
- PyInt: `PyJson.PyInt` accepts only the ASCII digits 0-9. Python's `int()` also accepts every other Unicode decimal digit (`int("١٢") == 12`), where the model raises ValueError. It is also modelled without surrounding blanks and `_` digit separators.
- Booleans hash equal to 0 and 1 in Python; as cache keys they are distinct here.
- pandas type inference and CSV quoting: a cell reads back as the value written into it.
- `Retry.Retry`: attempts past the end of the outcome list count as failures.
- `TokenPairs.GetTokenPairsCsv`: returns [] where the source returns a falsy `pairs` value of another type. Its callers only test that value for truth.
- `quant_ai.py` and the `get_latest_token_profiles` URL construction are not part of this model.

Where the project's documentation and the code disagree, the model follows the code:

- the live loop of `TEST_BOT.py` never calls `save_token_data`, so no market-cap ceiling applies to detected tokens (`Inspection.DetectionScenario`);
- a bare list response unwraps to its first pair and yields no pairs (`TokenPairs.BareListYieldsNothing`);
- the sampler binds "Unknown" as a price when no pairs come back (`PriceTracker.UnknownPriceDropsTick`);
- the CSV bot creates its data file without a header, so the documented deduplication fails on the second detection (`Inspection.FreshFileSecondDetectionRaises`).

## Findings

| source | as written | input that shows it | evidently intended | confidence | as-written member | corrected member |
|---|---|---|---|---|---|---|
| TEST_BOT.py:41-49 | `init_db` creates `tokens` with seven columns and no unique key, but the live loop's SELECT and upsert name `first_recorded_market_cap`, `all_time_high`, `holders`, `volume_24h` and `has_socials` and use `ON CONFLICT (token_name)` | a fresh database and any detected token: the SELECT fails on a missing column, the except at line 273 swallows it, and nothing is stored | `init_db` creates the columns the upsert names and a unique `token_name` | not executed; plausible, since a table created earlier by other code may carry the columns | TokenStore.InitDbSchemaStoresNothing | TokenStore.ExpectedSchemaUpserts |
| collection_bot.py:67-83 | the first save creates the data file with no header line, so pandas reads the first token's line as the header | two detections after a fresh start: the second save's `["Token Name"]` lookup raises KeyError, which `except FileNotFoundError` does not catch | write the header when creating the file, so later saves deduplicate by name | not executed | CsvStore.SecondSaveRaises | CsvStore.HeaderedSaveDeduplicates |
| TEST_BOT.py:181-195 | with no pairs, the price "Unknown" is bound to the REAL `price_usd` column, and the insert fails | a tick whose pairs call returns [] | record the tick with a NULL price, so every completed tick leaves a row | not executed | PriceTracker.UnknownPriceDropsTick | PriceTracker.NullPriceKeepsTick |

=== FILE: csv_store.dfy ===
/** The CSV bot's `save_token_data`: `dex_paid_tracked_data.csv` read back with
    pandas to skip names already logged, then one row appended. pandas takes the
    file's first line as its header, and the source never writes one. */
module CsvStore {
  import opened PyJson

  /** One CSV line, as the values written into it. */
  type Row = seq<Json>

  /** A CSV file's lines; `None` when the file does not exist. */
  type CsvFile = Option<seq<Row>>

  const NAME_COLUMN: Json := JStr("Token Name")

  /** The header a logging file would carry; only "Token Name" is looked up. */
  const HEADER: Row := [NAME_COLUMN, JStr("Token Symbol"), JStr("Market Cap"),
                        JStr("Pair Created At"), JStr("Dex Paid At"), JStr("Logged At")]

  /** The first header cell naming column `name` (pandas renames later duplicates). */
  function ColumnIndex(header: Row, name: Json): (r: Option<nat>)
    ensures r.Some? ==> r.value < |header| && header[r.value] == name
    ensures r.Some? ==> forall j :: 0 <= j < r.value ==> header[j] != name
    ensures r.None? <==> name !in header
  {
    if header == [] then None
    else if header[0] == name then Some(0)
    else match ColumnIndex(header[1..], name)
      case None => None
      case Some(i) => Some(i + 1)
  }

  /** A cell of a data line; a short line reads as NaN, modelled as `None`. */
  function Cell(row: Row, c: nat): Json
  {
    if c < |row| then row[c] else JNull
  }

  /** `pd.read_csv(DATA_FILE)["Token Name"].values` for an existing file. */
  function NameColumn(rows: seq<Row>): (r: Result<seq<Json>>)
    ensures rows == [] ==> r == Raise(EmptyDataError)
    ensures rows != [] && NAME_COLUMN !in rows[0] ==> r == Raise(KeyError)
    ensures rows != [] && NAME_COLUMN in rows[0] ==> r.Ok? && |r.value| == |rows| - 1
    ensures r.Ok? ==> forall i :: 1 <= i < |rows| ==> r.value[i - 1] == Cell(rows[i], ColumnIndex(rows[0], NAME_COLUMN).value)
  {
    if rows == [] then Raise(EmptyDataError)
    else match ColumnIndex(rows[0], NAME_COLUMN)
      case None => Raise(KeyError)
      case Some(c) => Ok(seq(|rows| - 1, i requires 0 <= i < |rows| - 1 => Cell(rows[i + 1], c)))
  }

  /** `name in column.values`: a missing name, or a NaN cell, matches nothing. CSV
      text round-trips and pandas type inference are not modelled: a cell equals
      the value written into it. */
  predicate Listed(name: Json, column: seq<Json>)
  {
    name != JNull && name in column
  }

  /** The line `save_token_data` appends; the logging time stands for its formatted timestamp. */
  function DataRow(data: map<string, Json>, now: int): (row: Row)
    ensures |row| == 6 && row[0] == Lookup(data, "tokenName", JNull)
  {
    [Lookup(data, "tokenName", JNull), Lookup(data, "tokenSymbol", JNull), Lookup(data, "marketCap", JNum(0)),
     Lookup(data, "pairCreatedAt", JNull), Lookup(data, "dexPaidAt", JNull), JNum(now)]
  }

  /** `save_token_data` as written: only a missing file is caught; an empty file
      or one whose first line lacks "Token Name" raises out of the call. */
  function SaveTokenData(file: CsvFile, data: map<string, Json>, now: int): (r: Result<CsvFile>)
    ensures file.None? ==> r == Ok(Some([DataRow(data, now)]))
    ensures file.Some? && file.value == [] ==> r == Raise(EmptyDataError)
    ensures file.Some? && file.value != [] && NAME_COLUMN !in file.value[0] ==> r == Raise(KeyError)
    ensures file.Some? && file.value != [] && NAME_COLUMN in file.value[0] ==>
              var name := Lookup(data, "tokenName", JNull);
              r == Ok(if Listed(name, NameColumn(file.value).value) then file
                      else Some(file.value + [DataRow(data, now)]))
  {
    match file
    case None => Ok(Some([DataRow(data, now)]))
    case Some(rows) =>
      var names :- NameColumn(rows);
      if Listed(Lookup(data, "tokenName", JNull), names) then Ok(file) else Ok(Some(rows + [DataRow(data, now)]))
  }

  /** The first save creates a file with no header, so the second save's pandas
      read takes the first token's line as the header and the "Token Name" lookup
      raises `KeyError`, which the `except FileNotFoundError` does not catch. */
  lemma SecondSaveRaises(first: map<string, Json>, second: map<string, Json>, t1: int, t2: int)
    requires NAME_COLUMN !in DataRow(first, t1)
    ensures SaveTokenData(None, first, t1).Ok?
    ensures SaveTokenData(SaveTokenData(None, first, t1).value, second, t2) == Raise(KeyError)
  {
  }

  /** A file that starts with the header line. */
  predicate HasHeader(file: CsvFile)
  {
    file.Some? ==> |file.value| > 0 && file.value[0] == HEADER
  }

  /** The names logged in a file: column 0 of every data line. */
  function LoggedNames(rows: seq<Row>): (names: seq<Json>)
    requires |rows| > 0
    ensures |names| == |rows| - 1
  {
    seq(|rows| - 1, i requires 0 <= i < |rows| - 1 => Cell(rows[i + 1], 0))
  }

  /** No name other than `None` is logged twice. */
  predicate DistinctNames(file: CsvFile)
    requires HasHeader(file)
  {
    file.Some? ==>
      var names := LoggedNames(file.value);
      forall i, j :: 0 <= i < j < |names| && names[i] != JNull ==> names[i] != names[j]
  }

  /** `save_token_data` with the header written when the file is created: the
      evidently intended save. On a file that exists it is the source's save. */
  function SaveTokenDataWithHeader(file: CsvFile, data: map<string, Json>, now: int): (r: Result<CsvFile>)
    ensures file.None? ==> r == Ok(Some([HEADER, DataRow(data, now)]))
    ensures file.Some? ==> r == SaveTokenData(file, data, now)
  {
    if file.None? then Ok(Some([HEADER, DataRow(data, now)])) else SaveTokenData(file, data, now)
  }

  /** On a file it created, the corrected save never raises, skips exactly the
      names already logged, otherwise appends one line and keeps every earlier
      one, and so never logs a name twice. */
  lemma HeaderedSaveDeduplicates(file: CsvFile, data: map<string, Json>, now: int)
    requires HasHeader(file) && DistinctNames(file)
    ensures var r := SaveTokenDataWithHeader(file, data, now);
            && r.Ok? && HasHeader(r.value) && DistinctNames(r.value)
    ensures var name := Lookup(data, "tokenName", JNull);
            file.Some? && Listed(name, LoggedNames(file.value)) ==> SaveTokenDataWithHeader(file, data, now) == Ok(file)
    ensures var name := Lookup(data, "tokenName", JNull);
            file.Some? && !Listed(name, LoggedNames(file.value)) ==>
              SaveTokenDataWithHeader(file, data, now) == Ok(Some(file.value + [DataRow(data, now)]))
  {
    if file.Some? {
      var rows := file.value;
      assert ColumnIndex(rows[0], NAME_COLUMN) == Some(0);
      assert NameColumn(rows).value == LoggedNames(rows);
      var r := SaveTokenDataWithHeader(file, data, now);
      var name := Lookup(data, "tokenName", JNull);
      if !Listed(name, LoggedNames(rows)) {
        var rows' := rows + [DataRow(data, now)];
        var names := LoggedNames(rows);
        var names' := LoggedNames(rows');
        assert names' == names + [name] by {
          assert forall i :: 0 <= i < |names| ==> names'[i] == names[i];
        }
        assert r.value == Some(rows');
      }
    }
  }
}

=== FILE: dex_paid.dfy ===
/** `is_dex_paid`: a linear search of the orders response for the first approved
    token-profile order. Both bots carry the same code. */
module DexPaid {
  import opened PyJson

  /** The pair `is_dex_paid` returns: `(True, order)` or `(False, None)`. */
  datatype Payment = Payment(paid: bool, order: Json)

  const NotPaid: Payment := Payment(false, JNull)

  /** An order whose `type` is "tokenProfile" and whose `status` is "approved"
      (a missing key reads as `None`, which equals neither). */
  predicate Approved(order: map<string, Json>)
  {
    && Lookup(order, "type", JNull) == JStr("tokenProfile")
    && Lookup(order, "status", JNull) == JStr("approved")
  }

  /** Every order before position `k` is a dict that is not approved. */
  predicate PlainBefore(orders: seq<Json>, k: nat)
    requires k <= |orders|
  {
    forall j :: 0 <= j < k ==> orders[j].JObj? && !Approved(orders[j].fields)
  }

  /** The order at `k` is the first approved one, and the search reaches it. */
  predicate FirstApproved(orders: seq<Json>, k: nat)
  {
    k < |orders| && PlainBefore(orders, k) && orders[k].JObj? && Approved(orders[k].fields)
  }

  /** The search reaches position `k` and finds something there that has no `.get`. */
  predicate FirstNonDict(orders: seq<Json>, k: nat)
  {
    k < |orders| && PlainBefore(orders, k) && !orders[k].JObj?
  }

  /** The loop over `orders`, from position `i` on. */
  function SearchFrom(orders: seq<Json>, i: nat): (r: Result<Payment>)
    requires i <= |orders|
    requires PlainBefore(orders, i)
    decreases |orders| - i
    ensures forall k: nat :: i <= k && FirstApproved(orders, k) ==> r == Ok(Payment(true, orders[k]))
    ensures forall k: nat :: i <= k && FirstNonDict(orders, k) ==> r == Raise(AttributeError)
    ensures PlainBefore(orders, |orders|) ==> r == Ok(NotPaid)
    ensures r.Ok? && r.value.paid ==> r.value.order.JObj? && Approved(r.value.order.fields)
    ensures r.Ok? && !r.value.paid ==> r.value.order == JNull
  {
    if i == |orders| then Ok(NotPaid)
    else match orders[i]
      case JObj(m) => if Approved(m) then Ok(Payment(true, orders[i])) else SearchFrom(orders, i + 1)
      case _ => Raise(AttributeError)
  }

  /** `is_dex_paid` given the orders response (`JNull` when the fetch failed). */
  function IsDexPaid(orders: Json): (r: Result<Payment>)
    ensures !Truthy(orders) ==> r == Ok(NotPaid)
    ensures Truthy(orders) && !orders.JArr? ==> r.Raise?
    ensures orders.JArr? ==> forall k: nat :: FirstApproved(orders.items, k) ==> r == Ok(Payment(true, orders.items[k]))
    ensures orders.JArr? ==> forall k: nat :: FirstNonDict(orders.items, k) ==> r == Raise(AttributeError)
    ensures orders.JArr? && PlainBefore(orders.items, |orders.items|) ==> r == Ok(NotPaid)
    ensures r.Ok? && r.value.paid ==> r.value.order.JObj? && Approved(r.value.order.fields)
    ensures r.Ok? && !r.value.paid ==> r.value.order == JNull
  {
    if !Truthy(orders) then Ok(NotPaid)
    else
      var xs :- IterForGet(orders);
      SearchFrom(xs, 0)
  }

  /** Appending orders after an approved one does not change the answer: the first match wins. */
  lemma FirstMatchWins(before: seq<Json>, order: map<string, Json>, after: seq<Json>)
    requires PlainBefore(before, |before|)
    requires Approved(order)
    ensures IsDexPaid(JArr(before + [JObj(order)] + after)) == Ok(Payment(true, JObj(order)))
  {
    var xs := before + [JObj(order)] + after;
    assert FirstApproved(xs, |before|);
  }
}

=== FILE: inspection.dfy ===
/** `inspect_token_profiles` of both bots, and one iteration of the Postgres
    bot's `main` loop (the CSV bot defines the profiles fetch but no loop): a
    fold over the latest token profiles that carries the dedup cache, the
    `tokens_scanned` and `dex_paid_sniped` counters, the time of the latest
    detection, the bot's store and the price samplers it started. An uncaught
    exception ends the pass (in the source it leaves `main` and the process); the
    state reached up to it is kept. */
module Inspection {
  import opened PyJson
  import opened TtlCache
  import opened DexPaid
  import opened TokenPairs
  import opened TokenStore
  import CsvStore
  import Retry
  import PriceTracker

  /** `TARGET_CHAIN_ID`. */
  const TARGET_CHAIN: Json := JStr("solana")

  /** A started `track_price_changes` thread, by the arguments it was given. */
  datatype Job = Job(address: Json, name: Json)

  /** The calls a step makes, in order, and the cache insert between them. */
  datatype Event = FetchOrders(address: Json) | CacheInsert(address: Json) | FetchPairs(address: Json)

  /** Where a bot writes detected tokens: the Postgres tables of TEST_BOT.py or
      the CSV file of collection_bot.py. */
  datatype Store = Tables(db: Db) | Files(file: CsvStore.CsvFile)

  /** The process-wide state `inspect_token_profiles` reads and writes. */
  datatype Bot = Bot(
    cache: Cache,
    scanned: nat,
    sniped: nat,
    latestPaid: Option<int>,
    store: Store,
    jobs: seq<Job>,
    log: seq<Event>)

  /** The state after a step or a pass, and the exception that ended it, if any. */
  datatype Outcome = Outcome(bot: Bot, crash: Option<Exc>)

  /** What the outside world answers to the step for the profile at position `k`:
      its `is_dex_paid` result, its `get_token_pairs` result and the time it is
      handled at, in seconds. */
  datatype Env = Env(dexPaid: nat -> Result<Payment>, pairs: nat -> Result<seq<Pair>>, clock: nat -> int)

  /** `is_dex_paid` on the network's answers `reply` to its retried orders request. */
  function OrdersCall(reply: seq<Retry.Attempt>): Result<Payment>
  {
    IsDexPaid(Retry.Fetch(reply))
  }

  /** The Postgres bot's world: the answers to each profile's orders and pairs requests. */
  function TablesEnv(orders: nat -> seq<Retry.Attempt>, pairs: nat -> seq<Retry.Attempt>, clock: nat -> int): Env
  {
    Env((k: nat) => OrdersCall(orders(k)), (k: nat) => PriceTracker.PairsCall(pairs(k)), clock)
  }

  /** The address and chain a profile names; `None` when a `.get` reads nothing. */
  function Address(profile: map<string, Json>): Json
  {
    Lookup(profile, "tokenAddress", JNull)
  }

  /** The first test of the loop: an address and a chain, and the target chain. */
  predicate OnTarget(profile: map<string, Json>)
  {
    var chain := Lookup(profile, "chainId", JNull);
    Truthy(Address(profile)) && Truthy(chain) && chain == TARGET_CHAIN
  }

  /** How the shared part of a step ends: skipped, raised, or with a paid token
      and the first of its pairs. */
  datatype Screened =
    | Skip(bot: Bot)
    | Crash(bot: Bot, exc: Exc)
    | Detected(bot: Bot, address: Json, order: Json, pair: Pair)

  /** The part of the loop body both bots share, up to `pair_data = pairs[0]`. */
  function Screen(bot: Bot, profile: Json, env: Env, i: nat): (r: Screened)
    ensures r.bot.scanned == bot.scanned + 1
    ensures r.bot.store == bot.store && r.bot.jobs == bot.jobs
    ensures r.bot.sniped == bot.sniped && r.bot.latestPaid == bot.latestPaid
    ensures !profile.JObj? ==> r == Crash(bot.(scanned := bot.scanned + 1), AttributeError)
    ensures r.Detected? ==>
              && profile.JObj? && OnTarget(profile.fields) && r.address == Address(profile.fields)
              && Hashable(r.address) && !Contains(bot.cache, r.address, env.clock(i))
              && env.dexPaid(i).Ok? && env.dexPaid(i).value.paid && r.order == env.dexPaid(i).value.order
              && env.pairs(i).Ok? && |env.pairs(i).value| > 0 && r.pair == env.pairs(i).value[0]
              && r.bot.cache == Insert(bot.cache, r.address, env.clock(i))
              && r.bot.log == bot.log + [FetchOrders(r.address), CacheInsert(r.address), FetchPairs(r.address)]
  {
    var now := env.clock(i);
    var counted := bot.(scanned := bot.scanned + 1);
    if !profile.JObj? then Crash(counted, AttributeError)
    else
      var address := Address(profile.fields);
      if !OnTarget(profile.fields) then Skip(counted)
      else if !Hashable(address) then Crash(counted, TypeError)
      else if Contains(counted.cache, address, now) then Skip(counted)
      else
        var asked := counted.(log := counted.log + [FetchOrders(address)]);
        match env.dexPaid(i)
        case Raise(e) => Crash(asked, e)
        case Ok(payment) =>
          if !payment.paid then Skip(asked)
          else
            var cached := asked.(cache := Insert(asked.cache, address, now),
                                 log := asked.log + [CacheInsert(address), FetchPairs(address)]);
            match env.pairs(i)
            case Raise(e) => Crash(cached, e)
            case Ok(pairs) => if pairs == [] then Skip(cached) else Detected(cached, address, payment.order, pairs[0])
  }

  /** `datetime.utcfromtimestamp(int(v) / 1000)` when `v` is truthy, else `None`;
      the formatted time is modelled by the milliseconds it comes from. */
  function Timestamp(v: Json): (r: Result<Json>)
    ensures !Truthy(v) ==> r == Ok(JNull)
    ensures Truthy(v) && v.JNum? ==> r == Ok(v)
    ensures Truthy(v) ==> (r.Raise? <==> PyInt(v).Raise?)
    ensures Truthy(v) && r.Ok? ==> r.value == JNum(PyInt(v).value)
    ensures Truthy(v) && v.JStr? && !IsIntLiteral(v.s) ==> r == Raise(ValueError)
    ensures Truthy(v) && (v.JArr? || v.JObj?) ==> r == Raise(TypeError)
    ensures v == JBool(true) ==> r == Ok(JNum(1))
    ensures r.Ok? ==> r.value.JNull? || r.value.JNum?
  {
    if !Truthy(v) then Ok(JNull)
    else match PyInt(v)
      case Ok(n) => Ok(JNum(n))
      case Raise(e) => Raise(e)
  }

  /** `dex_paid_at`: read from the order only when the order is truthy. */
  function PaymentTime(order: Json): (r: Result<Json>)
    ensures !Truthy(order) ==> r == Ok(JNull)
    ensures order.JObj? && "paymentTimestamp" in order.fields && order.fields["paymentTimestamp"].JNum? ==>
              r == Ok(if Truthy(order) && Truthy(order.fields["paymentTimestamp"]) then order.fields["paymentTimestamp"] else JNull)
    ensures Truthy(order) && !order.JObj? ==> r == Raise(AttributeError)
  {
    if !Truthy(order) then Ok(JNull)
    else match order
      case JObj(m) => Timestamp(Lookup(m, "paymentTimestamp", JNull))
      case _ => Raise(AttributeError)
  }

  /** `pair_data.get("baseToken", {}).get(sub)`. */
  function BaseToken(pair: Pair, sub: string): (r: Result<Json>)
    ensures r == Nested(JObj(pair), "baseToken", sub, JNull)
  {
    if DictOrAbsent(pair, "baseToken") then Ok(SubField(pair, "baseToken", sub, JNull)) else Raise(AttributeError)
  }

  /** The values the Postgres bot binds to its upsert, read in the source's order. */
  function TokenValuesOf(order: Json, pair: Pair): (r: Result<TokenValues>)
    ensures r.Ok? ==>
              && DictOrAbsent(pair, "baseToken")
              && r.value.name == SubField(pair, "baseToken", "name", JNull)
              && r.value.symbol == SubField(pair, "baseToken", "symbol", JNull)
              && r.value.marketCap == Lookup(pair, "marketCap", JNum(0))
              && r.value.holders == Lookup(pair, "holders", JNum(0))
              && r.value.volume24h == Lookup(pair, "volume24h", JNum(0))
              && r.value.hasSocials == Lookup(pair, "has_socials", JBool(false))
              && Timestamp(Lookup(pair, "pairCreatedAt", JNull)) == Ok(r.value.pairCreatedAt)
              && PaymentTime(order) == Ok(r.value.dexPaidAt)
    ensures r.Raise? <==>
              Timestamp(Lookup(pair, "pairCreatedAt", JNull)).Raise? || PaymentTime(order).Raise? || !DictOrAbsent(pair, "baseToken")
  {
    var created :- Timestamp(Lookup(pair, "pairCreatedAt", JNull));
    var paidAt :- PaymentTime(order);
    var name :- BaseToken(pair, "name");
    Ok(TokenValues(name, SubField(pair, "baseToken", "symbol", JNull), Lookup(pair, "marketCap", JNum(0)), created, paidAt,
                   Lookup(pair, "holders", JNum(0)), Lookup(pair, "volume24h", JNum(0)), Lookup(pair, "has_socials", JBool(false))))
  }

  /** The CSV bot's `token_data`. */
  function TokenData(order: Json, pair: Pair): (r: Result<map<string, Json>>)
    ensures r.Ok? <==> DictOrAbsent(pair, "baseToken") && order.JObj?
    ensures r.Ok? ==>
              && r.value.Keys == {"tokenName", "tokenSymbol", "marketCap", "pairCreatedAt", "dexPaidAt"}
              && r.value["tokenName"] == SubField(pair, "baseToken", "name", JNull)
              && r.value["tokenSymbol"] == SubField(pair, "baseToken", "symbol", JNull)
              && r.value["marketCap"] == Lookup(pair, "marketCap", JNull)
              && r.value["pairCreatedAt"] == Lookup(pair, "pairCreatedAt", JNull)
              && r.value["dexPaidAt"] == Lookup(order.fields, "paymentTimestamp", JNull)
  {
    var name :- BaseToken(pair, "name");
    var paidAt :- Get(order, "paymentTimestamp", JNull);
    Ok(map["tokenName" := name, "tokenSymbol" := SubField(pair, "baseToken", "symbol", JNull),
           "marketCap" := Lookup(pair, "marketCap", JNull), "pairCreatedAt" := Lookup(pair, "pairCreatedAt", JNull),
           "dexPaidAt" := paidAt])
  }

  /** A detection counted: the sampler started and the counters moved. */
  function Sniped(bot: Bot, store: Store, job: Job, now: int): Bot
  {
    bot.(store := store, jobs := bot.jobs + [job], sniped := bot.sniped + 1, latestPaid := Some(now))
  }

  /** The rest of the loop body, given a paid token and its first pair: the
      Postgres bot upserts (any database error is caught), the CSV bot calls its
      `save_token_data` as written, and both start a sampler and count the detection. */
  function Record(bot: Bot, address: Json, order: Json, pair: Pair, now: int): (r: Outcome)
    ensures r.crash.Some? ==> r.bot == bot
    ensures r.crash.None? ==> |r.bot.jobs| == |bot.jobs| + 1 && r.bot.jobs[|bot.jobs|].address == address
    ensures r.crash.None? ==> r.bot == Sniped(bot, r.bot.store, r.bot.jobs[|bot.jobs|], now)
    ensures bot.store.Tables? ==> r.bot.store.Tables? && (r.crash.Some? <==> TokenValuesOf(order, pair).Raise?)
    ensures bot.store.Tables? && r.crash.None? ==>
              r.bot.store.db == Upsert(bot.store.db, TokenValuesOf(order, pair).value, now).db
    ensures bot.store.Files? ==> r.bot.store.Files? && (r.crash.Some? <==>
              TokenData(order, pair).Raise? || CsvStore.SaveTokenData(bot.store.file, TokenData(order, pair).value, now).Raise?)
    ensures bot.store.Files? && r.crash.None? ==>
              Ok(r.bot.store.file) == CsvStore.SaveTokenData(bot.store.file, TokenData(order, pair).value, now)
  {
    match bot.store
    case Tables(db) =>
      (match TokenValuesOf(order, pair)
       case Raise(e) => Outcome(bot, Some(e))
       case Ok(v) => Outcome(Sniped(bot, Tables(Upsert(db, v, now).db), Job(address, v.name), now), None))
    case Files(file) =>
      match TokenData(order, pair)
      case Raise(e) => Outcome(bot, Some(e))
      case Ok(data) =>
        match CsvStore.SaveTokenData(file, data, now)
        case Raise(e) => Outcome(bot, Some(e))
        case Ok(saved) => Outcome(Sniped(bot, Files(saved), Job(address, data["tokenName"]), now), None)
  }

  /** One iteration of `for profile in token_profiles`, for the profile at position `i`. */
  function Step(bot: Bot, profile: Json, env: Env, i: nat): (r: Outcome)
    ensures r.bot.scanned == bot.scanned + 1
    ensures bot.jobs <= r.bot.jobs && |r.bot.jobs| <= |bot.jobs| + 1
    ensures r.bot.sniped - bot.sniped == |r.bot.jobs| - |bot.jobs|
    ensures |r.bot.jobs| == |bot.jobs| ==> r.bot.store == bot.store && r.bot.latestPaid == bot.latestPaid
    ensures |r.bot.jobs| > |bot.jobs| ==> r.crash.None? && r.bot.latestPaid == Some(env.clock(i))
    ensures r.bot.store.Tables? == bot.store.Tables?
    ensures bot.log <= r.bot.log
  {
    match Screen(bot, profile, env, i)
    case Skip(b) => Outcome(b, None)
    case Crash(b, e) => Outcome(b, Some(e))
    case Detected(b, address, order, pair) => Record(b, address, order, pair, env.clock(i))
  }

  /** The pass over `profiles`, as the source's loop runs it: up to and including
      the first step that raises. */
  function Inspect(bot: Bot, profiles: seq<Json>, env: Env): (r: Outcome)
    ensures bot.scanned <= r.bot.scanned <= bot.scanned + |profiles|
    ensures r.crash.None? ==> r.bot.scanned == bot.scanned + |profiles|
    ensures bot.jobs <= r.bot.jobs && |r.bot.jobs| - |bot.jobs| <= |profiles|
    ensures r.bot.sniped - bot.sniped == |r.bot.jobs| - |bot.jobs|
    ensures |r.bot.jobs| == |bot.jobs| ==> r.bot.store == bot.store && r.bot.latestPaid == bot.latestPaid
    ensures r.bot.store.Tables? == bot.store.Tables?
    ensures bot.log <= r.bot.log
  {
    if profiles == [] then Outcome(bot, None)
    else
      var before := Inspect(bot, profiles[..|profiles| - 1], env);
      if before.crash.Some? then before
      else Step(before.bot, profiles[|profiles| - 1], env, |profiles| - 1)
  }

  /** `inspect_token_profiles(token_profiles)`. */
  method InspectTokenProfiles(bot: Bot, profiles: seq<Json>, env: Env) returns (out: Outcome)
    ensures out == Inspect(bot, profiles, env)
    ensures out.crash.None? ==> out.bot.scanned == bot.scanned + |profiles|
    ensures out.bot.sniped - bot.sniped == |out.bot.jobs| - |bot.jobs|
  {
    out := Outcome(bot, None);
    var i := 0;
    while i < |profiles|
      invariant 0 <= i <= |profiles|
      invariant out == Inspect(bot, profiles[..i], env)
      invariant out.crash.None?
    {
      NextStep(bot, profiles, env, i);
      out := Step(out.bot, profiles[i], env, i);
      if out.crash.Some? {
        RaisedPassStops(bot, profiles, env, i + 1);
        return;
      }
      i := i + 1;
    }
    assert profiles[..i] == profiles;
  }

  /** A pass that has not raised goes on with the next profile. */
  lemma NextStep(bot: Bot, profiles: seq<Json>, env: Env, i: nat)
    requires i < |profiles|
    requires Inspect(bot, profiles[..i], env).crash.None?
    ensures Inspect(bot, profiles[..i + 1], env) == Step(Inspect(bot, profiles[..i], env).bot, profiles[i], env, i)
  {
    assert profiles[..i + 1][..i] == profiles[..i];
  }

  /** A pass that raised at a prefix ends there: the later profiles are never visited. */
  lemma {:induction false} RaisedPassStops(bot: Bot, profiles: seq<Json>, env: Env, k: nat)
    requires k <= |profiles|
    requires Inspect(bot, profiles[..k], env).crash.Some?
    decreases |profiles| - k
    ensures Inspect(bot, profiles, env) == Inspect(bot, profiles[..k], env)
  {
    if k < |profiles| {
      assert profiles[..k + 1][..k] == profiles[..k];
      RaisedPassStops(bot, profiles, env, k + 1);
    } else {
      assert profiles[..k] == profiles;
    }
  }

  /** One iteration of `main`: poll the feed and inspect it when it is truthy. A
      non-empty string or dict is iterated as its characters or keys, and the
      first of them, a `str`, has no `.get`; a number or `True` is not iterable. */
  function Poll(bot: Bot, profilesReply: seq<Retry.Attempt>, env: Env): (r: Outcome)
    ensures var profiles := Retry.Fetch(profilesReply);
            !Truthy(profiles) ==> r == Outcome(bot, None)
    ensures var profiles := Retry.Fetch(profilesReply);
            profiles.JArr? ==> r == Inspect(bot, profiles.items, env)
    ensures var profiles := Retry.Fetch(profilesReply);
            Truthy(profiles) && (profiles.JStr? || profiles.JObj?) ==>
              r == Outcome(bot.(scanned := bot.scanned + 1), Some(AttributeError))
    ensures var profiles := Retry.Fetch(profilesReply);
            Truthy(profiles) && (profiles.JNum? || profiles.JBool?) ==> r == Outcome(bot, Some(TypeError))
  {
    var profiles := Retry.Fetch(profilesReply);
    if !Truthy(profiles) then Outcome(bot, None)
    else match profiles
      case JArr(xs) => Inspect(bot, xs, env)
      case JStr(_) => Outcome(bot.(scanned := bot.scanned + 1), Some(AttributeError))
      case JObj(_) => Outcome(bot.(scanned := bot.scanned + 1), Some(AttributeError))
      case _ => Outcome(bot, Some(TypeError))
  }

  /** The items Python's `for` visits in a string: its characters, as strings. */
  function Chars(s: string): (items: seq<Json>)
    ensures |items| == |s| && forall i :: 0 <= i < |s| ==> items[i] == JStr([s[i]])
  {
    seq(|s|, i requires 0 <= i < |s| => JStr([s[i]]))
  }

  /** The items it visits in a dict whose keys come in the order `keys`. */
  function KeyItems(keys: seq<string>): (items: seq<Json>)
    ensures |items| == |keys| && forall i :: 0 <= i < |keys| ==> items[i] == JStr(keys[i])
  {
    seq(|keys|, i requires 0 <= i < |keys| => JStr(keys[i]))
  }

  /** A pass whose first profile is a string ends at once: it is counted, and its
      `.get` raises `AttributeError`. */
  lemma FirstStringRaises(bot: Bot, items: seq<Json>, env: Env)
    requires |items| > 0 && items[0].JStr?
    ensures Inspect(bot, items, env) == Outcome(bot.(scanned := bot.scanned + 1), Some(AttributeError))
  {
    assert items[..1][..0] == [];
    RaisedPassStops(bot, items, env, 1);
  }

  /** One poll is the pass over whatever Python's `for` visits in the feed: a
      list's items, a string's characters, a dict's keys (in `order`, Python's
      insertion order); an empty feed does nothing and a number or `True` is not
      iterable. */
  lemma PollIteratesFeed(bot: Bot, profilesReply: seq<Retry.Attempt>, env: Env, order: seq<string>)
    requires var p := Retry.Fetch(profilesReply);
             p.JObj? ==> forall k :: k in p.fields <==> k in order
    ensures var p := Retry.Fetch(profilesReply);
            !Truthy(p) ==> Poll(bot, profilesReply, env) == Outcome(bot, None)
    ensures var p := Retry.Fetch(profilesReply);
            p.JArr? ==> Poll(bot, profilesReply, env) == Inspect(bot, p.items, env)
    ensures var p := Retry.Fetch(profilesReply);
            Truthy(p) && p.JStr? ==> Poll(bot, profilesReply, env) == Inspect(bot, Chars(p.s), env)
    ensures var p := Retry.Fetch(profilesReply);
            Truthy(p) && p.JObj? ==> Poll(bot, profilesReply, env) == Inspect(bot, KeyItems(order), env)
    ensures var p := Retry.Fetch(profilesReply);
            Truthy(p) && (p.JNum? || p.JBool?) ==> Poll(bot, profilesReply, env) == Outcome(bot, Some(TypeError))
  {
    var p := Retry.Fetch(profilesReply);
    if Truthy(p) && p.JStr? {
      FirstStringRaises(bot, Chars(p.s), env);
    } else if Truthy(p) && p.JObj? {
      var k :| k in p.fields;
      assert k in order;
      FirstStringRaises(bot, KeyItems(order), env);
    }
  }

  /** A step that passes the filter and the cache check, for a paid token. */
  predicate Reaches(bot: Bot, profile: Json, env: Env, i: nat)
  {
    && profile.JObj? && OnTarget(profile.fields) && Hashable(Address(profile.fields))
    && !Contains(bot.cache, Address(profile.fields), env.clock(i))
  }

  /** A profile without an address or chain, or on another chain, only counts as scanned. */
  lemma OffTargetSkips(bot: Bot, profile: Json, env: Env, i: nat)
    requires profile.JObj? && !OnTarget(profile.fields)
    ensures Step(bot, profile, env, i) == Outcome(bot.(scanned := bot.scanned + 1), None)
  {
  }

  /** A profile whose address is still in the cache only counts as scanned: no call
      is made and nothing is stored. */
  lemma CachedSkips(bot: Bot, profile: Json, env: Env, i: nat)
    requires profile.JObj? && OnTarget(profile.fields) && Hashable(Address(profile.fields))
    requires Contains(bot.cache, Address(profile.fields), env.clock(i))
    ensures Step(bot, profile, env, i) == Outcome(bot.(scanned := bot.scanned + 1), None)
  {
  }

  /** An unpaid token is looked up but not cached, so a later poll asks again. */
  lemma UnpaidStaysEligible(bot: Bot, profile: Json, env: Env, i: nat)
    requires Reaches(bot, profile, env, i)
    requires env.dexPaid(i).Ok? && !env.dexPaid(i).value.paid
    ensures Step(bot, profile, env, i) ==
            Outcome(bot.(scanned := bot.scanned + 1, log := bot.log + [FetchOrders(Address(profile.fields))]), None)
  {
  }

  /** The state a paid token reaches before its pairs are used: counted, cached at
      the step's time, and the orders, cache insert and pairs call logged in that order. */
  function PaidState(bot: Bot, address: Json, now: int): Bot
  {
    bot.(scanned := bot.scanned + 1, cache := Insert(bot.cache, address, now),
         log := bot.log + [FetchOrders(address), CacheInsert(address), FetchPairs(address)])
  }

  /** A paid token is cached before its pairs are fetched: when the pairs call
      raises or brings no pairs, the entry stays while nothing is stored, no
      sampler starts and the sniped counter does not move. */
  lemma CachedBeforePairs(bot: Bot, profile: Json, env: Env, i: nat)
    requires Reaches(bot, profile, env, i)
    requires env.dexPaid(i).Ok? && env.dexPaid(i).value.paid
    ensures var paid := PaidState(bot, Address(profile.fields), env.clock(i));
            env.pairs(i) == Ok([]) ==> Step(bot, profile, env, i) == Outcome(paid, None)
    ensures var paid := PaidState(bot, Address(profile.fields), env.clock(i));
            env.pairs(i).Raise? ==> Step(bot, profile, env, i) == Outcome(paid, Some(env.pairs(i).exc))
    ensures Step(bot, profile, env, i).bot.cache == Insert(bot.cache, Address(profile.fields), env.clock(i))
    ensures Contains(Step(bot, profile, env, i).bot.cache, Address(profile.fields), env.clock(i))
  {
    var r := Screen(bot, profile, env, i);
    assert r.bot == PaidState(bot, Address(profile.fields), env.clock(i));
  }

  /** The Postgres bot on a paid token with pairs: the first pair's values are
      upserted, a sampler starts for the address and name, and the detection is
      counted at the step's time. */
  lemma TablesSnipe(bot: Bot, profile: Json, env: Env, i: nat)
    requires bot.store.Tables?
    requires Reaches(bot, profile, env, i)
    requires env.dexPaid(i).Ok? && env.dexPaid(i).value.paid
    requires env.pairs(i).Ok? && |env.pairs(i).value| > 0
    requires TokenValuesOf(env.dexPaid(i).value.order, env.pairs(i).value[0]).Ok?
    ensures var v := TokenValuesOf(env.dexPaid(i).value.order, env.pairs(i).value[0]).value;
            var now := env.clock(i);
            Step(bot, profile, env, i) ==
              Outcome(Sniped(PaidState(bot, Address(profile.fields), now), Tables(Upsert(bot.store.db, v, now).db),
                             Job(Address(profile.fields), v.name), now), None)
  {
    var r := Screen(bot, profile, env, i);
    assert r.bot == PaidState(bot, Address(profile.fields), env.clock(i));
  }

  /** The CSV bot on a paid token with pairs, with no data file yet or one that
      carries its header: the save cannot raise, and a sampler starts. */
  lemma FilesSnipe(bot: Bot, profile: Json, env: Env, i: nat)
    requires bot.store.Files? && CsvStore.HasHeader(bot.store.file) && CsvStore.DistinctNames(bot.store.file)
    requires Reaches(bot, profile, env, i)
    requires env.dexPaid(i).Ok? && env.dexPaid(i).value.paid
    requires env.pairs(i).Ok? && |env.pairs(i).value| > 0
    requires TokenData(env.dexPaid(i).value.order, env.pairs(i).value[0]).Ok?
    ensures var data := TokenData(env.dexPaid(i).value.order, env.pairs(i).value[0]).value;
            var now := env.clock(i);
            var saved := CsvStore.SaveTokenData(bot.store.file, data, now);
            && saved.Ok?
            && Step(bot, profile, env, i) ==
                 Outcome(Sniped(PaidState(bot, Address(profile.fields), now), Files(saved.value),
                                Job(Address(profile.fields), data["tokenName"]), now), None)
    ensures var data := TokenData(env.dexPaid(i).value.order, env.pairs(i).value[0]).value;
            var saved := CsvStore.SaveTokenData(bot.store.file, data, env.clock(i));
            bot.store.file.None? ==> saved == Ok(Some([CsvStore.DataRow(data, env.clock(i))])) && !CsvStore.HasHeader(saved.value)
    ensures var data := TokenData(env.dexPaid(i).value.order, env.pairs(i).value[0]).value;
            var saved := CsvStore.SaveTokenData(bot.store.file, data, env.clock(i));
            bot.store.file.Some? ==> saved.Ok? && CsvStore.HasHeader(saved.value) && CsvStore.DistinctNames(saved.value)
  {
    var data := TokenData(env.dexPaid(i).value.order, env.pairs(i).value[0]).value;
    CsvStore.HeaderedSaveDeduplicates(bot.store.file, data, env.clock(i));
    assert CsvStore.DataRow(data, env.clock(i))[5] != CsvStore.HEADER[5];
    var r := Screen(bot, profile, env, i);
    assert r.bot == PaidState(bot, Address(profile.fields), env.clock(i));
  }

  /** As written, from a missing data file: the first detection's save creates the
      file without a header, so the next detection's save reads that line as the
      header, its "Token Name" lookup raises `KeyError`, and the pass ends there. */
  lemma FreshFileSecondDetectionRaises(bot: Bot, a1: Json, o1: Json, p1: Pair, t1: int,
                                       a2: Json, o2: Json, p2: Pair, t2: int)
    requires bot.store == Files(None)
    requires TokenData(o1, p1).Ok? && TokenData(o2, p2).Ok?
    requires CsvStore.NAME_COLUMN !in CsvStore.DataRow(TokenData(o1, p1).value, t1)
    ensures Record(bot, a1, o1, p1, t1).crash.None?
    ensures var first := Record(bot, a1, o1, p1, t1).bot;
            Record(first, a2, o2, p2, t2) == Outcome(first, Some(KeyError))
  {
    CsvStore.SecondSaveRaises(TokenData(o1, p1).value, TokenData(o2, p2).value, t1, t2);
  }

  /** How one step touches the cache: not at all, or by writing the profile's
      address at the step's time; a started sampler belongs to that address, which
      was not in the cache before. */
  lemma StepCache(bot: Bot, profile: Json, env: Env, i: nat)
    ensures var r := Step(bot, profile, env, i);
            r.bot.cache == bot.cache || (profile.JObj? && r.bot.cache == Insert(bot.cache, Address(profile.fields), env.clock(i)))
    ensures var r := Step(bot, profile, env, i);
            |r.bot.jobs| > |bot.jobs| ==>
              && profile.JObj? && r.bot.jobs[|bot.jobs|].address == Address(profile.fields)
              && !Contains(bot.cache, Address(profile.fields), env.clock(i))
              && r.bot.cache == Insert(bot.cache, Address(profile.fields), env.clock(i))
  {
  }

  /** The Postgres tables only evolve during a pass: rows stay, write-once columns
      are kept, all-time highs do not fall and keep covering market caps. */
  lemma StepGrows(bot: Bot, profile: Json, env: Env, i: nat)
    requires bot.store.Tables?
    ensures var after := Step(bot, profile, env, i).bot.store.db;
            && Grows(bot.store.db, after)
            && (AllAthCover(bot.store.db) ==> AllAthCover(after))
  {
    var r := Step(bot, profile, env, i);
    var s := Screen(bot, profile, env, i);
    if s.Detected? && r.crash.None? {
      var v := TokenValuesOf(s.order, s.pair).value;
      UpsertGrows(bot.store.db, v, env.clock(i));
      if AllAthCover(bot.store.db) {
        UpsertKeepsAthCover(bot.store.db, v, env.clock(i));
      }
    }
  }

  /** The same over a whole pass. */
  lemma {:induction false} PassGrows(bot: Bot, profiles: seq<Json>, env: Env)
    requires bot.store.Tables?
    ensures var after := Inspect(bot, profiles, env).bot.store.db;
            && Grows(bot.store.db, after)
            && (AllAthCover(bot.store.db) ==> AllAthCover(after))
  {
    if profiles != [] {
      var prefix := profiles[..|profiles| - 1];
      PassGrows(bot, prefix, env);
      var before := Inspect(bot, prefix, env);
      if before.crash.None? {
        StepGrows(before.bot, profiles[|profiles| - 1], env, |profiles| - 1);
        GrowsTransitive(bot.store.db, before.bot.store.db, Inspect(bot, profiles, env).bot.store.db);
      }
    }
  }

  /** A data file that exists and starts with the header keeps its header and
      never logs a name twice during a pass: on such a file the source's save is
      the corrected one. (From a missing file the source never writes a header;
      see `FreshFileSecondDetectionRaises`.) */
  lemma {:induction false} PassKeepsFile(bot: Bot, profiles: seq<Json>, env: Env)
    requires bot.store.Files? && bot.store.file.Some?
    requires CsvStore.HasHeader(bot.store.file) && CsvStore.DistinctNames(bot.store.file)
    ensures var after := Inspect(bot, profiles, env).bot.store;
            && after.Files? && after.file.Some?
            && CsvStore.HasHeader(after.file) && CsvStore.DistinctNames(after.file)
  {
    if profiles != [] {
      var prefix := profiles[..|profiles| - 1];
      PassKeepsFile(bot, prefix, env);
      var before := Inspect(bot, prefix, env);
      if before.crash.None? {
        var i := |profiles| - 1;
        var s := Screen(before.bot, profiles[i], env, i);
        if s.Detected? && TokenData(s.order, s.pair).Ok? {
          CsvStore.HeaderedSaveDeduplicates(before.bot.store.file, TokenData(s.order, s.pair).value, env.clock(i));
        }
      }
    }
  }

  /** Every profile of the pass is handled within `TTL_SECONDS` of the first. */
  predicate WithinTtl(env: Env, n: nat)
  {
    forall k :: 0 <= k < n ==> env.clock(0) <= env.clock(k) < env.clock(0) + TTL_SECONDS
  }

  /** The samplers from position `from` on are for addresses cached at `t0` or later. */
  predicate JobsCached(jobs: seq<Job>, from: nat, cache: Cache, t0: int)
  {
    forall p :: from <= p < |jobs| ==> jobs[p].address in cache && t0 <= cache[jobs[p].address]
  }

  /** The samplers from position `from` on are for pairwise different addresses. */
  predicate DistinctJobs(jobs: seq<Job>, from: nat)
  {
    forall p, q :: from <= p < q < |jobs| ==> jobs[p].address != jobs[q].address
  }

  /** A step handled at most `TTL_SECONDS` after `t0` keeps the samplers started
      since `t0` cached and pairwise different: it starts one only for an address
      that was not cached, and caches it at its own time. */
  lemma StepKeepsJobs(bot: Bot, profile: Json, env: Env, i: nat, from: nat, t0: int)
    requires from <= |bot.jobs|
    requires t0 <= env.clock(i) < t0 + TTL_SECONDS
    requires JobsCached(bot.jobs, from, bot.cache, t0) && DistinctJobs(bot.jobs, from)
    ensures var out := Step(bot, profile, env, i).bot;
            JobsCached(out.jobs, from, out.cache, t0) && DistinctJobs(out.jobs, from)
  {
    StepCache(bot, profile, env, i);
    var out := Step(bot, profile, env, i).bot;
    forall p | from <= p < |bot.jobs|
      ensures out.jobs[p] == bot.jobs[p]
      ensures Contains(bot.cache, bot.jobs[p].address, env.clock(i))
    {
    }
  }

  /** In a pass shorter than the cache's TTL no address gets two samplers: each
      detection leaves the address cached from then on, so a repeat of it in the
      same feed is skipped. */
  lemma {:induction false} NoDoubleSnipe(bot: Bot, profiles: seq<Json>, env: Env)
    requires WithinTtl(env, |profiles|)
    ensures var out := Inspect(bot, profiles, env).bot;
            JobsCached(out.jobs, |bot.jobs|, out.cache, env.clock(0)) && DistinctJobs(out.jobs, |bot.jobs|)
  {
    if profiles != [] {
      var i := |profiles| - 1;
      assert WithinTtl(env, i);
      NoDoubleSnipe(bot, profiles[..i], env);
      var before := Inspect(bot, profiles[..i], env);
      if before.crash.None? {
        StepKeepsJobs(before.bot, profiles[i], env, i, |bot.jobs|, env.clock(0));
      }
    }
  }

  /** The end-to-end detection: a feed with one profile "Tkn1" on "solana", an
      approved order paid at 1700000000000, and one pair for "Foo"/"FOO" with a
      market cap of `mc`. */
  const TKN1: Json := JStr("Tkn1")
  const FOO: Json := JStr("Foo")
  const PAID_AT: Json := JNum(1700000000000)
  const SCENARIO_PROFILE: Json := JObj(map["tokenAddress" := TKN1, "chainId" := TARGET_CHAIN])
  const SCENARIO_ORDER: Json := JObj(map["type" := JStr("tokenProfile"), "status" := JStr("approved"), "paymentTimestamp" := PAID_AT])

  function ScenarioPair(mc: int): Json
  {
    JObj(map["baseToken" := JObj(map["name" := FOO, "symbol" := JStr("FOO")]), "marketCap" := JNum(mc)])
  }

  /** The network's answers: the orders request and the pairs request each
      succeed on their first attempt. */
  function ScenarioEnv(mc: int, now: int): Env
  {
    TablesEnv((k: nat) => [Retry.Answered(JArr([SCENARIO_ORDER]))],
              (k: nat) => [Retry.Answered(JObj(map["pairs" := JArr([ScenarioPair(mc)])]))],
              (k: nat) => now)
  }

  /** `is_dex_paid` finds the scenario's order. */
  lemma ScenarioIsPaid()
    ensures OrdersCall([Retry.Answered(JArr([SCENARIO_ORDER]))]) == Ok(Payment(true, SCENARIO_ORDER))
  {
    assert FirstApproved([SCENARIO_ORDER], 0);
  }

  /** `get_token_pairs` returns the scenario's pair, normalised. */
  lemma ScenarioPairs(mc: int)
    ensures PriceTracker.PairsCall([Retry.Answered(JObj(map["pairs" := JArr([ScenarioPair(mc)])]))])
         == Ok([NormalizePair(ScenarioPair(mc)).value])
  {
    ScenarioNormalizes(mc);
    var data := JObj(map["pairs" := JArr([ScenarioPair(mc)])]);
    assert Retry.Fetch([Retry.Answered(data)]) == data;
    assert "pairs" in data.fields && data.fields != map[];
    assert Unwrap(data) == data && Lookup(data.fields, "pairs", JArr([])) == JArr([ScenarioPair(mc)]);
    assert PairList(data) == Some([ScenarioPair(mc)]);
    var r := NormalizeAll(Postgres, [ScenarioPair(mc)]);
    assert NormalizeWith(Postgres, ScenarioPair(mc)) == NormalizePair(ScenarioPair(mc));
    assert r.Ok? && |r.value| == 1 && r.value[0] == NormalizePair(ScenarioPair(mc)).value;
    assert r.value == [NormalizePair(ScenarioPair(mc)).value];
  }

  /** The values the scenario binds to the upsert. */
  function ScenarioValues(mc: int): TokenValues
  {
    TokenValues(FOO, JStr("FOO"), JNum(mc), JNull, PAID_AT, JNum(0), JNum(0), JBool(false))
  }

  /** The scenario's pair after normalisation: its own keys kept, no
      `pairCreatedAt`, holders and volume 0, no socials. */
  predicate ScenarioShaped(pair: Pair, mc: int)
  {
    && "baseToken" in pair && pair["baseToken"] == JObj(map["name" := FOO, "symbol" := JStr("FOO")])
    && "marketCap" in pair && pair["marketCap"] == JNum(mc)
    && "pairCreatedAt" !in pair
    && "holders" in pair && pair["holders"] == JNum(0)
    && "volume24h" in pair && pair["volume24h"] == JNum(0)
    && "has_socials" in pair && pair["has_socials"] == JBool(false)
  }

  lemma ScenarioNormalizes(mc: int)
    ensures NormalizePair(ScenarioPair(mc)).Ok?
    ensures ScenarioShaped(NormalizePair(ScenarioPair(mc)).value, mc)
  {
    var p := ScenarioPair(mc);
    assert Normalizable(p);
    assert p.fields.Keys == {"baseToken", "marketCap"};
    assert "baseToken" !in DerivedKeys && "marketCap" !in DerivedKeys && "pairCreatedAt" !in DerivedKeys;
  }

  /** A pair of that shape reads as the scenario's values. */
  lemma ScenarioReadsValues(pair: Pair, mc: int)
    requires ScenarioShaped(pair, mc)
    ensures TokenValuesOf(SCENARIO_ORDER, pair) == Ok(ScenarioValues(mc))
  {
  }

  /** What the scenario's pass does to the state, whatever world answers with
      the scenario's order and a pair of the scenario's shape. */
  predicate ScenarioStored(bot: Bot, out: Outcome, mc: int, now: int)
  {
    && out.crash.None?
    && out.bot.sniped == bot.sniped + 1 && out.bot.scanned == bot.scanned + 1
    && out.bot.jobs == bot.jobs + [Job(TKN1, FOO)]
    && out.bot.latestPaid == Some(now)
    && bot.store.Tables? && out.bot.store.Tables?
    && out.bot.store.db.named.Keys == bot.store.db.named.Keys + {"Foo"}
    && out.bot.store.db.named["Foo"].firstRecordedMarketCap == Some(mc)
    && out.bot.store.db.named["Foo"].allTimeHigh == Some(mc)
    && out.bot.store.db.named["Foo"].dexPaidAt == PAID_AT
    && out.bot.store.db.named["Foo"].symbol == JStr("FOO")
    && out.bot.store.db.named["Foo"].marketCap == Some(mc)
    && out.bot.store.db.named["Foo"].pairCreatedAt == JNull
    && out.bot.store.db.named["Foo"].holders == JNum(0)
    && out.bot.store.db.named["Foo"].volume24h == JNum(0)
    && out.bot.store.db.named["Foo"].hasSocials == JBool(false)
    && out.bot.store.db.named["Foo"].loggedAt == now
    && Contains(out.bot.cache, TKN1, now)
  }

  /** The scenario's profile passes the filter for "Tkn1". */
  lemma ScenarioOnTarget()
    ensures SCENARIO_PROFILE.JObj? && Address(SCENARIO_PROFILE.fields) == TKN1
    ensures OnTarget(SCENARIO_PROFILE.fields) && Hashable(TKN1)
  {
  }

  /** The upsert of the scenario's values for a new name inserts a fresh row. */
  lemma ScenarioUpsert(db: Db, mc: int, now: int)
    requires "Foo" !in db.named && Int4(mc)
    ensures Upsert(db, ScenarioValues(mc), now).db == db.(named := db.named["Foo" := FreshRow(ScenarioValues(mc), now)])
    ensures FreshRow(ScenarioValues(mc), now).firstRecordedMarketCap == Some(mc)
    ensures FreshRow(ScenarioValues(mc), now).allTimeHigh == Some(mc)
    ensures FreshRow(ScenarioValues(mc), now).dexPaidAt == PAID_AT
  {
  }

  lemma PaidTokenStored(bot: Bot, env: Env, pair: Pair, mc: int)
    requires bot.store.Tables? && "Foo" !in bot.store.db.named
    requires !Contains(bot.cache, TKN1, env.clock(0))
    requires env.dexPaid(0) == Ok(Payment(true, SCENARIO_ORDER))
    requires env.pairs(0) == Ok([pair]) && ScenarioShaped(pair, mc) && Int4(mc)
    ensures ScenarioStored(bot, Inspect(bot, [SCENARIO_PROFILE], env), mc, env.clock(0))
  {
    ScenarioReadsValues(pair, mc);
    ScenarioOnTarget();
    ScenarioUpsert(bot.store.db, mc, env.clock(0));
    assert [SCENARIO_PROFILE][..0] == [];
    TablesSnipe(bot, SCENARIO_PROFILE, env, 0);
  }

  /** With a fresh cache and "Foo" not yet stored, the pass inserts one row whose
      first-recorded market cap and all-time high are `mc`, counts one detection
      and starts one sampler for ("Tkn1", "Foo"). No ceiling is applied on this
      path: `mc` above `MAX_MARKET_CAP` is stored as well, as long as the INTEGER
      column holds it. */
  lemma DetectionScenario(bot: Bot, mc: int, now: int)
    requires bot.store.Tables? && "Foo" !in bot.store.db.named && Int4(mc)
    requires !Contains(bot.cache, TKN1, now)
    ensures ScenarioStored(bot, Inspect(bot, [SCENARIO_PROFILE], ScenarioEnv(mc, now)), mc, now)
  {
    var env := ScenarioEnv(mc, now);
    ScenarioIsPaid();
    ScenarioPairs(mc);
    ScenarioNormalizes(mc);
    assert env.dexPaid(0) == OrdersCall([Retry.Answered(JArr([SCENARIO_ORDER]))]);
    assert env.pairs(0) == PriceTracker.PairsCall([Retry.Answered(JObj(map["pairs" := JArr([ScenarioPair(mc)])]))]);
    assert env.clock(0) == now;
    PaidTokenStored(bot, env, NormalizePair(ScenarioPair(mc)).value, mc);
  }

  /** A one-profile pass over the scenario's profile, for a paid answer, leaves
      "Tkn1" cached at the pass's time, whatever the pairs call and the store do. */
  lemma ScenarioPassCaches(bot: Bot, env: Env)
    requires !Contains(bot.cache, TKN1, env.clock(0))
    requires env.dexPaid(0).Ok? && env.dexPaid(0).value.paid
    ensures Inspect(bot, [SCENARIO_PROFILE], env).bot.cache == Insert(bot.cache, TKN1, env.clock(0))
  {
    ScenarioOnTarget();
    assert [SCENARIO_PROFILE][..0] == [];
    CachedBeforePairs(bot, SCENARIO_PROFILE, env, 0);
  }

  /** A one-profile pass over the scenario's profile while "Tkn1" is cached only
      counts it. */
  lemma ScenarioPassSkips(bot: Bot, env: Env)
    requires Contains(bot.cache, TKN1, env.clock(0))
    ensures Inspect(bot, [SCENARIO_PROFILE], env) == Outcome(bot.(scanned := bot.scanned + 1), None)
  {
    ScenarioOnTarget();
    assert [SCENARIO_PROFILE][..0] == [];
    CachedSkips(bot, SCENARIO_PROFILE, env, 0);
  }

  /** Re-running the scenario within the TTL: the address was cached before the
      pairs call and the write, so whatever the market cap and whatever is stored,
      the profile is only counted; no orders or pairs call is made and nothing is
      stored. */
  lemma RerunShortCircuits(bot: Bot, mc: int, now: int, later: int)
    requires !Contains(bot.cache, TKN1, now)
    requires now <= later < now + TTL_SECONDS
    ensures var first := Inspect(bot, [SCENARIO_PROFILE], ScenarioEnv(mc, now)).bot;
            Inspect(first, [SCENARIO_PROFILE], ScenarioEnv(mc, later)) == Outcome(first.(scanned := first.scanned + 1), None)
  {
    var env := ScenarioEnv(mc, now);
    ScenarioIsPaid();
    assert env.dexPaid(0) == OrdersCall([Retry.Answered(JArr([SCENARIO_ORDER]))]);
    assert env.clock(0) == now;
    ScenarioPassCaches(bot, env);
    var first := Inspect(bot, [SCENARIO_PROFILE], env).bot;
    assert Contains(first.cache, TKN1, later);
    ScenarioPassSkips(first, ScenarioEnv(mc, later));
  }

  /** A market cap the INTEGER column cannot hold: the upsert fails, the error is
      caught, and the tables stay as they were. */
  lemma ScenarioOutOfRange(db: Db, mc: int, now: int)
    requires !Int4(mc)
    ensures Upsert(db, ScenarioValues(mc), now) == Saved(db, Failed)
  {
  }

  /** End to end with such a market cap: nothing is stored, yet the sampler starts
      and the detection is counted, since the failed write is only logged. */
  lemma OutOfRangeCapNotStored(bot: Bot, mc: int, now: int)
    requires bot.store.Tables? && !Contains(bot.cache, TKN1, now) && !Int4(mc)
    ensures var out := Inspect(bot, [SCENARIO_PROFILE], ScenarioEnv(mc, now));
            && out.crash.None? && out.bot.store == bot.store
            && out.bot.sniped == bot.sniped + 1 && out.bot.jobs == bot.jobs + [Job(TKN1, FOO)]
  {
    var env := ScenarioEnv(mc, now);
    ScenarioIsPaid();
    ScenarioPairs(mc);
    ScenarioNormalizes(mc);
    var pair := NormalizePair(ScenarioPair(mc)).value;
    assert env.dexPaid(0) == OrdersCall([Retry.Answered(JArr([SCENARIO_ORDER]))]);
    assert env.pairs(0) == PriceTracker.PairsCall([Retry.Answered(JObj(map["pairs" := JArr([ScenarioPair(mc)])]))]);
    assert env.clock(0) == now;
    ScenarioReadsValues(pair, mc);
    ScenarioOnTarget();
    ScenarioOutOfRange(bot.store.db, mc, now);
    assert [SCENARIO_PROFILE][..0] == [];
    TablesSnipe(bot, SCENARIO_PROFILE, env, 0);
  }
}

=== FILE: price_tracker.dfy ===
/** `track_price_changes`: a fixed number of ticks, each fetching the token's
    pairs and recording the first pair's `priceUsd`. The Postgres bot inserts a
    `prices` row per tick; the CSV bot appends to `price_tracking_data.csv`,
    writing a header first when the file did not exist. The sleeps between ticks
    are left out; `clock(k)` is the time of tick `k` and `pairsAt(k)` what that
    tick's `get_token_pairs` call returned, which is `GetTokenPairs(Fetch(reply))`
    for the network's answers `reply` to its retried request (see `PairsCall`). */
module PriceTracker {
  import opened PyJson
  import opened Retry
  import opened TokenPairs
  import opened TokenStore
  import CsvStore

  /** The defaults: six hours, one sample a minute. */
  const DURATION_HOURS: int := 6
  const INTERVAL_MINUTES: int := 1

  /** The placeholder both bots record when no pairs come back. */
  const UNKNOWN: Json := JStr("Unknown")

  /** Python's `a // b`: the floor of the quotient, `ZeroDivisionError` for zero. */
  function FloorDiv(a: int, b: int): (r: Result<int>)
    ensures b == 0 <==> r == Raise(ZeroDivisionError)
    ensures b > 0 ==> r.Ok? && r.value * b <= a < (r.value + 1) * b
    ensures b < 0 ==> r.Ok? && (r.value + 1) * b < a <= r.value * b
  {
    if b == 0 then Raise(ZeroDivisionError)
    else if b > 0 then Ok(a / b)
    else Ok((-a) / (-b))
  }

  /** `total_checks = (duration * 60) // interval`. */
  function TotalChecks(duration: int, interval: int): Result<int>
  {
    FloorDiv(duration * 60, interval)
  }

  /** `range(n)` runs no iteration for a negative `n`. */
  function Iterations(n: int): nat
  {
    if n < 0 then 0 else n
  }

  /** With the defaults the sampler ticks 360 times. */
  lemma DefaultChecks()
    ensures TotalChecks(DURATION_HOURS, INTERVAL_MINUTES) == Ok(360)
  {
  }

  /** How far a sampler got: the lines or rows it stored, the ticks it completed
      and the exception, if any, that ended its thread. */
  datatype Run<R> = Run(rows: seq<R>, ticks: nat, stop: Option<Exc>)

  /** A run extended by one tick's outcome; a stopped run stays as it is. */
  function Advance<R>(prev: Run<R>, tick: Result<seq<R>>): Run<R>
  {
    if prev.stop.Some? then prev
    else match tick
      case Raise(e) => Run(prev.rows, prev.ticks, Some(e))
      case Ok(rows) => Run(prev.rows + rows, prev.ticks + 1, None)
  }

  /** The reference run: the first `n` ticks, `tickAt(k)` being what tick `k`
      stores, stopping at the first exception. */
  function Fold<R>(tickAt: nat -> Result<seq<R>>, n: nat): (run: Run<R>)
    ensures run.ticks <= n
    ensures run.stop.None? <==> run.ticks == n
  {
    if n == 0 then Run([], 0, None)
    else Advance(Fold(tickAt, n - 1), tickAt(n - 1))
  }

  /** `for _ in range(n)` over the ticks, leaving the loop at the first exception. */
  method RunTicks<R>(tickAt: nat -> Result<seq<R>>, n: nat) returns (run: Run<R>)
    ensures run == Fold(tickAt, n)
  {
    run := Run([], 0, None);
    var i := 0;
    while i < n
      invariant 0 <= i <= n
      invariant run == Fold(tickAt, i)
      invariant run.stop.None?
    {
      var tick := tickAt(i);
      run := Advance(run, tick);
      if tick.Raise? {
        StoppedStaysStopped(tickAt, i + 1, n);
        return;
      }
      i := i + 1;
    }
  }

  /** Once a run has stopped, later ticks change nothing. */
  lemma {:induction false} StoppedStaysStopped<R>(tickAt: nat -> Result<seq<R>>, k: nat, n: nat)
    requires k <= n
    requires Fold(tickAt, k).stop.Some?
    decreases n - k
    ensures Fold(tickAt, n) == Fold(tickAt, k)
  {
    if k < n {
      StoppedStaysStopped(tickAt, k + 1, n);
    }
  }

  /** The price one tick records: the first pair's `priceUsd` (`None` if absent),
      or `missing` when no pairs came back. */
  function TickPrice(pairs: seq<Pair>, missing: Json): Json
  {
    if |pairs| > 0 then Lookup(pairs[0], "priceUsd", JNull) else missing
  }

  /** The Postgres bot's pairs call of one tick, on the network's answers `reply`. */
  function PairsCall(reply: seq<Attempt>): Result<seq<Pair>>
  {
    GetTokenPairs(Fetch(reply))
  }

  /** One tick of the Postgres sampler, given its pairs call's outcome: that call is
      outside the `try`, so its exception ends the thread; a failed insert is
      caught and stores nothing. */
  function Tick(address: Json, name: Json, pairs: Result<seq<Pair>>, timestamp: int, missing: Json): (r: Result<seq<PriceRow>>)
    ensures r.Raise? <==> pairs.Raise?
    ensures r.Ok? ==> |r.value| <= 1
    ensures r.Ok? && |r.value| == 1 ==> r.value[0] == PriceRow(name, address, timestamp, TickPrice(pairs.value, missing))
  {
    var ps :- pairs;
    Ok(InsertPrice([], name, address, timestamp, TickPrice(ps, missing)))
  }

  /** The Postgres sampler's ticks. */
  function PgTicks(address: Json, name: Json, missing: Json, pairsAt: nat -> Result<seq<Pair>>, clock: nat -> int)
    : nat -> Result<seq<PriceRow>>
  {
    (k: nat) => Tick(address, name, pairsAt(k), clock(k), missing)
  }

  /** The Postgres sampler thread: `total_checks` ticks. `missing` is the price
      recorded when no pairs come back: "Unknown" in the source. */
  method RunSampler(address: Json, name: Json, duration: int, interval: int, missing: Json,
                    pairsAt: nat -> Result<seq<Pair>>, clock: nat -> int) returns (run: Run<PriceRow>)
    ensures interval == 0 ==> run == Run([], 0, Some(ZeroDivisionError))
    ensures interval != 0 ==> run == Fold(PgTicks(address, name, missing, pairsAt, clock), Iterations(TotalChecks(duration, interval).value))
    ensures interval != 0 ==> run.ticks <= Iterations(TotalChecks(duration, interval).value)
    ensures interval != 0 && run.stop.None? ==> run.ticks == Iterations(TotalChecks(duration, interval).value)
    ensures |run.rows| <= run.ticks
    ensures forall j :: 0 <= j < |run.rows| ==> run.rows[j].tokenName == name && run.rows[j].tokenAddress == address
  {
    var total := TotalChecks(duration, interval);
    if total.Raise? {
      return Run([], 0, Some(total.exc));
    }
    run := RunTicks(PgTicks(address, name, missing, pairsAt, clock), Iterations(total.value));
    PgRowsNamed(address, name, missing, pairsAt, clock, Iterations(total.value));
  }

  /** A Postgres run stores at most one row per tick, each carrying the sampled
      token's name and address. */
  lemma {:induction false} PgRowsNamed(address: Json, name: Json, missing: Json, pairsAt: nat -> Result<seq<Pair>>, clock: nat -> int, n: nat)
    ensures var run := Fold(PgTicks(address, name, missing, pairsAt, clock), n);
            && |run.rows| <= run.ticks
            && forall j :: 0 <= j < |run.rows| ==> run.rows[j].tokenName == name && run.rows[j].tokenAddress == address
  {
    if n > 0 {
      PgRowsNamed(address, name, missing, pairsAt, clock, n - 1);
      var tick := Tick(address, name, pairsAt(n - 1), clock(n - 1), missing);
      assert PgTicks(address, name, missing, pairsAt, clock)(n - 1) == tick;
    }
  }

  /** As written: a tick whose pairs call yields no pairs binds "Unknown" to the
      REAL column, the insert fails, and the tick stores no row. */
  lemma UnknownPriceDropsTick(address: Json, name: Json, reply: seq<Attempt>, timestamp: int)
    requires PairsCall(reply) == Ok([])
    ensures Tick(address, name, PairsCall(reply), timestamp, UNKNOWN) == Ok([])
  {
    UnknownIsNotReal();
  }

  /** Corrected: recording NULL for a missing price, every tick that does not raise
      stores exactly one row when the price the API reports is storable, so a run
      stores one row per completed tick, in tick order, with that tick's time and
      price. */
  lemma {:induction false} NullPriceKeepsTick(address: Json, name: Json, pairsAt: nat -> Result<seq<Pair>>, clock: nat -> int, n: nat)
    requires Scalar(address) && Scalar(name)
    requires forall k :: 0 <= k < n && pairsAt(k).Ok? ==> FitsReal(TickPrice(pairsAt(k).value, JNull))
    ensures var run := Fold(PgTicks(address, name, JNull, pairsAt, clock), n);
            |run.rows| == run.ticks
    ensures var run := Fold(PgTicks(address, name, JNull, pairsAt, clock), n);
            forall j :: 0 <= j < |run.rows| ==>
              pairsAt(j).Ok? && run.rows[j] == PriceRow(name, address, clock(j), TickPrice(pairsAt(j).value, JNull))
  {
    if n > 0 {
      NullPriceKeepsTick(address, name, pairsAt, clock, n - 1);
    }
  }

  /** `headers` of the price file. */
  const PRICE_HEADER: CsvStore.Row := [JStr("Token Name"), JStr("Token Address"), JStr("Timestamp"), JStr("Price USD")]

  /** The CSV bot's pairs call of one tick, on the network's answers `reply`. */
  function CsvPairsCall(reply: seq<Attempt>): Result<seq<Pair>>
  {
    GetTokenPairsCsv(Fetch(reply))
  }

  /** The data line of one CSV tick. */
  function PriceLine(address: Json, name: Json, pairs: seq<Pair>, timestamp: int): (line: CsvStore.Row)
    ensures |line| == 4 && line[0] == name && line[1] == address
    ensures line[2] == JNum(timestamp)
    ensures |pairs| > 0 ==> line[3] == Lookup(pairs[0], "priceUsd", JNull)
    ensures |pairs| == 0 ==> line[3] == UNKNOWN
  {
    [name, address, JNum(timestamp), TickPrice(pairs, UNKNOWN)]
  }

  /** Tick `k` of the CSV sampler: the exception of the pairs call, or the lines it
      appends. `file_exists` is false only until the first line is written, so
      only tick 0 of a sampler that found no price file writes the header. */
  function CsvTick(fileExisted: bool, k: nat, address: Json, name: Json, pairs: Result<seq<Pair>>, timestamp: int)
    : Result<seq<CsvStore.Row>>
  {
    var ps :- pairs;
    Ok((if !fileExisted && k == 0 then [PRICE_HEADER] else []) + [PriceLine(address, name, ps, timestamp)])
  }

  /** The CSV sampler's ticks. */
  function CsvTicks(fileExisted: bool, address: Json, name: Json, pairsAt: nat -> Result<seq<Pair>>, clock: nat -> int)
    : nat -> Result<seq<CsvStore.Row>>
  {
    (k: nat) => CsvTick(fileExisted, k, address, name, pairsAt(k), clock(k))
  }

  /** The CSV sampler thread. `fileExisted` is whether the price file could be
      opened before the loop. */
  method RunCsvSampler(fileExisted: bool, address: Json, name: Json, duration: int, interval: int,
                       pairsAt: nat -> Result<seq<Pair>>, clock: nat -> int) returns (run: Run<CsvStore.Row>)
    ensures interval == 0 ==> run == Run([], 0, Some(ZeroDivisionError))
    ensures interval != 0 ==> run == Fold(CsvTicks(fileExisted, address, name, pairsAt, clock), Iterations(TotalChecks(duration, interval).value))
    ensures |run.rows| == run.ticks + (if !fileExisted && run.ticks > 0 then 1 else 0)
    ensures !fileExisted && run.ticks > 0 ==> run.rows[0] == PRICE_HEADER
    ensures forall j :: (if !fileExisted then 1 else 0) <= j < |run.rows| ==>
              |run.rows[j]| == 4 && run.rows[j][0] == name && run.rows[j][1] == address
    ensures forall k :: 0 <= k < run.ticks ==>
              && pairsAt(k).Ok?
              && run.rows[(if !fileExisted then 1 else 0) + k] == PriceLine(address, name, pairsAt(k).value, clock(k))
  {
    var total := TotalChecks(duration, interval);
    if total.Raise? {
      return Run([], 0, Some(total.exc));
    }
    run := RunTicks(CsvTicks(fileExisted, address, name, pairsAt, clock), Iterations(total.value));
    CsvLines(fileExisted, address, name, pairsAt, clock, Iterations(total.value));
  }

  /** A CSV run writes the header once, first, when the file was missing, and then
      one line per completed tick, in tick order: the sampled token's name and
      address, that tick's time and that tick's price. */
  lemma {:induction false} CsvLines(fileExisted: bool, address: Json, name: Json, pairsAt: nat -> Result<seq<Pair>>, clock: nat -> int, n: nat)
    ensures var run := Fold(CsvTicks(fileExisted, address, name, pairsAt, clock), n);
            && |run.rows| == run.ticks + (if !fileExisted && run.ticks > 0 then 1 else 0)
            && (!fileExisted && run.ticks > 0 ==> run.rows[0] == PRICE_HEADER)
            && forall j :: (if !fileExisted then 1 else 0) <= j < |run.rows| ==>
                 |run.rows[j]| == 4 && run.rows[j][0] == name && run.rows[j][1] == address
    ensures var run := Fold(CsvTicks(fileExisted, address, name, pairsAt, clock), n);
            forall k :: 0 <= k < run.ticks ==>
              && pairsAt(k).Ok?
              && run.rows[(if !fileExisted then 1 else 0) + k] == PriceLine(address, name, pairsAt(k).value, clock(k))
  {
    CsvShape(fileExisted, address, name, pairsAt, clock, n);
    CsvInOrder(fileExisted, address, name, pairsAt, clock, n);
  }

  /** The line count, the header and the name and address cells of a CSV run. */
  lemma {:induction false} CsvShape(fileExisted: bool, address: Json, name: Json, pairsAt: nat -> Result<seq<Pair>>, clock: nat -> int, n: nat)
    ensures var run := Fold(CsvTicks(fileExisted, address, name, pairsAt, clock), n);
            && |run.rows| == run.ticks + (if !fileExisted && run.ticks > 0 then 1 else 0)
            && (!fileExisted && run.ticks > 0 ==> run.rows[0] == PRICE_HEADER)
            && forall j :: (if !fileExisted then 1 else 0) <= j < |run.rows| ==>
                 |run.rows[j]| == 4 && run.rows[j][0] == name && run.rows[j][1] == address
  {
    if n > 0 {
      CsvShape(fileExisted, address, name, pairsAt, clock, n - 1);
      var tick := CsvTick(fileExisted, n - 1, address, name, pairsAt(n - 1), clock(n - 1));
      assert CsvTicks(fileExisted, address, name, pairsAt, clock)(n - 1) == tick;
    }
  }

  /** The data line of completed tick `k` is that tick's `PriceLine`. */
  lemma CsvInOrder(fileExisted: bool, address: Json, name: Json, pairsAt: nat -> Result<seq<Pair>>, clock: nat -> int, n: nat)
    ensures var run := Fold(CsvTicks(fileExisted, address, name, pairsAt, clock), n);
            forall k :: 0 <= k < run.ticks ==>
              && pairsAt(k).Ok?
              && (if !fileExisted then 1 else 0) + k < |run.rows|
              && run.rows[(if !fileExisted then 1 else 0) + k] == PriceLine(address, name, pairsAt(k).value, clock(k))
  {
    var run := Fold(CsvTicks(fileExisted, address, name, pairsAt, clock), n);
    forall k | 0 <= k < run.ticks
      ensures && pairsAt(k).Ok?
              && (if !fileExisted then 1 else 0) + k < |run.rows|
              && run.rows[(if !fileExisted then 1 else 0) + k] == PriceLine(address, name, pairsAt(k).value, clock(k))
    {
      CsvLineAt(fileExisted, address, name, pairsAt, clock, n, k);
    }
  }

  /** The data line of one completed tick. */
  lemma CsvLineAt(fileExisted: bool, address: Json, name: Json, pairsAt: nat -> Result<seq<Pair>>, clock: nat -> int, n: nat, k: nat)
    requires k < Fold(CsvTicks(fileExisted, address, name, pairsAt, clock), n).ticks
    ensures var run := Fold(CsvTicks(fileExisted, address, name, pairsAt, clock), n);
            && pairsAt(k).Ok?
            && (if !fileExisted then 1 else 0) + k < |run.rows|
            && run.rows[(if !fileExisted then 1 else 0) + k] == PriceLine(address, name, pairsAt(k).value, clock(k))
  {
    var f := CsvTicks(fileExisted, address, name, pairsAt, clock);
    CompletedTick(f, n, k);
    CsvCount(fileExisted, address, name, pairsAt, clock, k);
    var tick := CsvTick(fileExisted, k, address, name, pairsAt(k), clock(k));
    assert f(k) == tick;
    var upTo := Fold(f, k + 1).rows;
    assert upTo[|upTo| - 1] == PriceLine(address, name, pairsAt(k).value, clock(k));
  }

  /** A run that has not stopped after `k` ticks holds `k` lines, plus the header
      when the file was missing and a tick has completed. */
  lemma CsvCount(fileExisted: bool, address: Json, name: Json, pairsAt: nat -> Result<seq<Pair>>, clock: nat -> int, k: nat)
    ensures var run := Fold(CsvTicks(fileExisted, address, name, pairsAt, clock), k);
            |run.rows| == run.ticks + (if !fileExisted && run.ticks > 0 then 1 else 0)
  {
    CsvShape(fileExisted, address, name, pairsAt, clock, k);
  }

  /** The rows of an earlier point of a run are a prefix of its later rows. */
  lemma {:induction false} FoldPrefix<R>(tickAt: nat -> Result<seq<R>>, k: nat, n: nat)
    requires k <= n
    decreases n - k
    ensures Fold(tickAt, k).rows <= Fold(tickAt, n).rows
  {
    if k < n {
      FoldPrefix(tickAt, k, n - 1);
    }
  }

  /** Tick `k` of a run that completed more than `k` ticks did not raise, and
      what it stored follows the rows of the ticks before it. */
  lemma CompletedTick<R>(tickAt: nat -> Result<seq<R>>, n: nat, k: nat)
    requires k < Fold(tickAt, n).ticks
    ensures Fold(tickAt, k + 1).stop.None? && tickAt(k).Ok?
    ensures Fold(tickAt, k + 1).rows == Fold(tickAt, k).rows + tickAt(k).value
    ensures Fold(tickAt, k + 1).rows <= Fold(tickAt, n).rows
  {
    if Fold(tickAt, k + 1).stop.Some? {
      StoppedStaysStopped(tickAt, k + 1, n);
      assert false;
    }
    FoldPrefix(tickAt, k + 1, n);
  }
}

=== FILE: py_json.dfy ===
/** Python values as the bots see them after `response.json()`: a JSON tree whose
    objects are dicts, plus the few builtins the bots apply to them (`.get`,
    truthiness, `int()`, `>`), each with the exceptions Python raises. */
module PyJson {

  /** A decoded JSON value. `JNull` is Python's `None`; numbers are integers. */
  datatype Json =
    | JNull
    | JBool(b: bool)
    | JNum(n: int)
    | JStr(s: string)
    | JArr(items: seq<Json>)
    | JObj(fields: map<string, Json>)

  /** The uncaught Python exceptions the modelled code can raise. */
  datatype Exc =
    | AttributeError     // `.get` on something that is not a dict
    | TypeError          // iterating a non-iterable, comparing None with int, hashing a list
    | ValueError         // `int()` of a non-numeric string
    | KeyError           // a missing pandas column
    | EmptyDataError     // pandas reading an empty file
    | ZeroDivisionError  // `//` by zero

  /** A value, or the exception that ended the computation. */
  datatype Result<+T> = Ok(value: T) | Raise(exc: Exc) {
    predicate IsFailure() { Raise? }

    function PropagateFailure<U>(): Result<U>
      requires Raise?
    {
      Raise(exc)
    }

    function Extract(): T
      requires Ok?
    {
      value
    }
  }

  datatype Option<+T> = None | Some(value: T)

  const EmptyObj: Json := JObj(map[])

  /** Python's `bool(v)`. */
  predicate Truthy(v: Json)
  {
    match v
    case JNull => false
    case JBool(b) => b
    case JNum(n) => n != 0
    case JStr(s) => s != ""
    case JArr(xs) => xs != []
    case JObj(m) => m != map[]
  }

  /** `d.get(key, default)`: only a dict has `.get`. */
  function Get(d: Json, key: string, default: Json): (r: Result<Json>)
    ensures r.Ok? <==> d.JObj?
  {
    match d
    case JObj(m) => Ok(if key in m then m[key] else default)
    case _ => Raise(AttributeError)
  }

  /** What `.get` finds in dict `m`: the stored value, or the default. */
  function Lookup(m: map<string, Json>, key: string, default: Json): Json
  {
    if key in m then m[key] else default
  }

  /** Hashable values can be dict or cache keys; lists and dicts cannot. */
  predicate Hashable(v: Json)
  {
    !v.JArr? && !v.JObj?
  }

  /** The elements a `for x in v:` loop visits before its body's first `x.get(...)`
      fails: a list's items; nothing for an empty string or dict; a non-empty
      string or dict yields a `str` first, which has no `.get`; `None`, numbers
      and booleans are not iterable. */
  function IterForGet(v: Json): (r: Result<seq<Json>>)
    ensures v.JArr? ==> r == Ok(v.items)
    ensures r.Ok? ==> v.JArr? || !Truthy(v)
  {
    match v
    case JArr(xs) => Ok(xs)
    case JStr(s) => if s == "" then Ok([]) else Raise(AttributeError)
    case JObj(m) => if m == map[] then Ok([]) else Raise(AttributeError)
    case _ => Raise(TypeError)
  }

  predicate IsDigit(c: char) { '0' <= c <= '9' }

  predicate AllDigits(s: string)
  {
    forall i :: 0 <= i < |s| ==> IsDigit(s[i])
  }

  /** The value of a string of decimal digits. */
  function DigitsValue(s: string): (n: nat)
    requires AllDigits(s)
  {
    if s == [] then 0
    else DigitsValue(s[..|s| - 1]) * 10 + ((s[|s| - 1] as int - '0' as int) as nat)
  }

  /** The literal without its sign. */
  function Unsigned(s: string): string
  {
    if |s| > 0 && (s[0] == '+' || s[0] == '-') then s[1..] else s
  }

  /** An optionally signed run of decimal digits (`int()` also allows surrounding
      blanks and `_` separators, which this model leaves out). */
  predicate IsIntLiteral(s: string)
  {
    |Unsigned(s)| > 0 && AllDigits(Unsigned(s))
  }

  /** Python's `int(v)` for the JSON values it accepts: numbers, booleans and
      signed decimal literals. */
  function PyInt(v: Json): (r: Result<int>)
    ensures v.JNum? ==> r == Ok(v.n)
    ensures v.JNull? || v.JArr? || v.JObj? ==> r == Raise(TypeError)
    ensures v.JBool? ==> r == Ok(if v.b then 1 else 0)
    ensures v.JStr? ==> (r.Ok? <==> IsIntLiteral(v.s))
    ensures v.JStr? && !IsIntLiteral(v.s) ==> r == Raise(ValueError)
  {
    match v
    case JNum(n) => Ok(n)
    case JBool(b) => Ok(if b then 1 else 0)
    case JStr(s) =>
      if !IsIntLiteral(s) then Raise(ValueError)
      else
        var magnitude: int := DigitsValue(Unsigned(s));
        Ok(if s[0] == '-' then -magnitude else magnitude)
    case _ => Raise(TypeError)
  }

  /** Python's `v > bound` for an integer bound: numbers and booleans compare,
      anything else raises. */
  function GreaterThan(v: Json, bound: int): (r: Result<bool>)
    ensures v.JNum? ==> r == Ok(v.n > bound)
    ensures v.JBool? ==> r == Ok((if v.b then 1 else 0) > bound)
    ensures r.Ok? <==> v.JNum? || v.JBool?
  {
    match v
    case JNum(n) => Ok(n > bound)
    case JBool(b) => Ok((if b then 1 else 0) > bound)
    case _ => Raise(TypeError)
  }

  /** The decimal digits of `n`, most significant first, without leading zeros:
      `str(n)` for a non-negative integer. */
  function Digits(n: nat): (s: string)
    ensures |s| > 0 && s[0] != '+' && s[0] != '-'
  {
    if n < 10 then ['0' + n as char]
    else Digits(n / 10) + ['0' + (n % 10) as char]
  }

  /** `str(n)`: a minus sign for a negative integer, then its digits. */
  function Decimal(n: int): string
  {
    if n < 0 then "-" + Digits(-n) else Digits(n)
  }

  /** Reading back the digits `str` writes gives the number. */
  lemma {:induction false} DigitsRoundTrip(n: nat)
    ensures AllDigits(Digits(n)) && DigitsValue(Digits(n)) == n
  {
    if n >= 10 {
      DigitsRoundTrip(n / 10);
      var s := Digits(n);
      assert s[..|s| - 1] == Digits(n / 10);
    }
  }

  /** `int(str(n)) == n` for every integer. */
  lemma PyIntDecimal(n: int)
    ensures PyInt(JStr(Decimal(n))) == Ok(n)
  {
    var m: nat := if n < 0 then -n else n;
    DigitsRoundTrip(m);
    assert Unsigned(Decimal(n)) == Digits(m);
  }
}

=== FILE: retry.dfy ===
/** `retry_request`: a bounded number of HTTP GETs, returning the decoded body of the
    first one that succeeds, or `None`. The network is a list of attempt outcomes. */
module Retry {
  import opened PyJson

  /** The default `retries` and `delay` (seconds) every caller uses. */
  const RETRIES: int := 3
  const DELAY_SECONDS: nat := 5

  /** One HTTP attempt: a 2xx answer with its decoded body, or any `RequestException`
      (connection error, timeout, error status, undecodable body). */
  datatype Attempt = Answered(body: Json) | RequestFailed

  /** What `retry_request` did: the value it returned (`JNull` stands for `None`), the
      number of requests it sent and the seconds it slept between them. */
  datatype Fetched = Fetched(body: Json, attempts: nat, slept: nat)

  /** The server's answer to attempt `k`; past the end of the list the network stays down. */
  function AttemptAt(outcomes: seq<Attempt>, k: nat): Attempt
  {
    if k < |outcomes| then outcomes[k] else RequestFailed
  }

  predicate FailedBefore(outcomes: seq<Attempt>, k: nat)
  {
    forall j :: 0 <= j < k ==> AttemptAt(outcomes, j).RequestFailed?
  }

  /** Attempt `k` is the first one that was answered. */
  predicate FirstAnswer(outcomes: seq<Attempt>, k: nat)
  {
    AttemptAt(outcomes, k).Answered? && FailedBefore(outcomes, k)
  }

  /** The attempts from `k` on, all earlier ones having failed and slept `delay`. */
  function RetryFrom(outcomes: seq<Attempt>, retries: int, delay: nat, k: nat): (r: Fetched)
    requires k <= retries
    requires FailedBefore(outcomes, k)
    decreases retries - k
    ensures k <= r.attempts <= retries
    ensures forall a :: k <= a < retries && FirstAnswer(outcomes, a) ==>
              r == Fetched(AttemptAt(outcomes, a).body, a + 1, a * delay)
    ensures (forall a :: k <= a < retries ==> AttemptAt(outcomes, a).RequestFailed?) ==>
              r == Fetched(JNull, retries, retries * delay)
  {
    if k == retries then Fetched(JNull, k, k * delay)
    else match AttemptAt(outcomes, k)
      case Answered(body) => Fetched(body, k + 1, k * delay)
      case RequestFailed => RetryFrom(outcomes, retries, delay, k + 1)
  }

  /** `retry_request(url, retries, delay)` against the given answers. */
  function Retry(outcomes: seq<Attempt>, retries: int, delay: nat): (r: Fetched)
    ensures r.attempts <= if retries < 0 then 0 else retries
    ensures forall k :: 0 <= k < retries && FirstAnswer(outcomes, k) ==>
              r == Fetched(AttemptAt(outcomes, k).body, k + 1, k * delay)
    ensures retries >= 0 && (forall k :: 0 <= k < retries ==> AttemptAt(outcomes, k).RequestFailed?) ==>
              r == Fetched(JNull, retries, retries * delay)
    ensures retries <= 0 ==> r == Fetched(JNull, 0, 0)
  {
    if retries <= 0 then Fetched(JNull, 0, 0) else RetryFrom(outcomes, retries, delay, 0)
  }

  /** The body of a default `retry_request(url)` call. */
  function Fetch(outcomes: seq<Attempt>): Json
  {
    Retry(outcomes, RETRIES, DELAY_SECONDS).body
  }

  /** A server that fails twice and then answers is asked exactly three times. */
  lemma FailTwiceThenAnswer(body: Json)
    ensures Retry([RequestFailed, RequestFailed, Answered(body)], RETRIES, DELAY_SECONDS)
         == Fetched(body, 3, 10)
  {
    assert FirstAnswer([RequestFailed, RequestFailed, Answered(body)], 2);
  }

  /** A server that never answers yields `None` after exactly `retries` attempts. */
  lemma AlwaysFailing(outcomes: seq<Attempt>, retries: nat, delay: nat)
    requires forall k :: 0 <= k < |outcomes| ==> outcomes[k].RequestFailed?
    ensures Retry(outcomes, retries, delay) == Fetched(JNull, retries, retries * delay)
  {
    assert forall k :: 0 <= k < retries ==> AttemptAt(outcomes, k).RequestFailed?;
  }

  /** Only the first `retries` answers matter: a success after them is never seen. */
  lemma {:induction false} LateAnswerIgnored(outcomes: seq<Attempt>, retries: int, delay: nat, later: seq<Attempt>)
    requires |outcomes| == retries
    requires forall k :: 0 <= k < |outcomes| ==> outcomes[k].RequestFailed?
    ensures Retry(outcomes + later, retries, delay).body == JNull
  {
    var all := outcomes + later;
    assert forall k :: 0 <= k < retries ==> AttemptAt(all, k) == outcomes[k];
  }
}

=== FILE: token_pairs.dfy ===
/** `get_token_pairs`: the pairs response turned into a list of pair dicts, each
    extended with derived fields read from nested sub-objects. `GetTokenPairs` is
    the Postgres bot's version, `GetTokenPairsCsv` the CSV bot's. */
module TokenPairs {
  import opened PyJson

  /** A pair object, after normalisation carrying the derived keys as well. */
  type Pair = map<string, Json>

  /** The keys the Postgres bot writes into every pair. */
  const DerivedKeys: set<string> := {"volume24h", "liquidity", "buyers", "sellers", "holders", "has_socials"}

  /** The keys the CSV bot writes into every pair. */
  const CsvDerivedKeys: set<string> := {"volume24h", "liquidity", "buyers", "sellers"}

  /** `d.get(key, {}).get(sub, default)`. */
  function Nested(d: Json, key: string, sub: string, default: Json): (r: Result<Json>)
    ensures r.Ok? <==> d.JObj? && (key in d.fields ==> d.fields[key].JObj?)
  {
    var inner :- Get(d, key, EmptyObj);
    Get(inner, sub, default)
  }

  /** `key` is missing from the dict or holds a dict, so `.get(key, {}).get(...)` works. */
  predicate DictOrAbsent(m: map<string, Json>, key: string)
  {
    key !in m || m[key].JObj?
  }

  /** What `m.get(key, {}).get(sub, default)` reads. */
  function SubField(m: map<string, Json>, key: string, sub: string, default: Json): Json
    requires DictOrAbsent(m, key)
  {
    if key in m then Lookup(m[key].fields, sub, default) else default
  }

  /** `txns` and `txns.h24` are both dicts or absent. */
  predicate TxnsReadable(m: map<string, Json>)
  {
    DictOrAbsent(m, "txns") && ("txns" in m ==> DictOrAbsent(m["txns"].fields, "h24"))
  }

  /** What `m.get("txns", {}).get("h24", {}).get(side, 0)` reads. */
  function TxnsField(m: map<string, Json>, side: string): Json
    requires TxnsReadable(m)
  {
    if "txns" in m then SubField(m["txns"].fields, "h24", side, JNum(0)) else JNum(0)
  }

  /** A pair the Postgres bot can normalise without an `AttributeError`. */
  predicate Normalizable(p: Json)
  {
    && p.JObj?
    && DictOrAbsent(p.fields, "volume")
    && DictOrAbsent(p.fields, "liquidity")
    && TxnsReadable(p.fields)
    && DictOrAbsent(p.fields, "holders")
    && DictOrAbsent(p.fields, "info")
  }

  /** The loop body of the Postgres bot's `get_token_pairs` on one pair. Every
      read sees the pair's original value: each key is read before it is written. */
  function NormalizePair(p: Json): (r: Result<Pair>)
    ensures r.Ok? <==> Normalizable(p)
    ensures r.Ok? ==> r.value.Keys == p.fields.Keys + DerivedKeys
    ensures r.Ok? ==> forall k :: k in p.fields && k !in DerivedKeys ==> r.value[k] == p.fields[k]
    ensures r.Ok? ==> r.value["volume24h"] == SubField(p.fields, "volume", "h24", JNum(0))
    ensures r.Ok? ==> r.value["liquidity"] == SubField(p.fields, "liquidity", "usd", JStr("Unknown"))
    ensures r.Ok? ==> r.value["buyers"] == TxnsField(p.fields, "buys")
    ensures r.Ok? ==> r.value["sellers"] == TxnsField(p.fields, "sells")
    ensures r.Ok? ==> r.value["holders"] == SubField(p.fields, "holders", "total", JNum(0))
    ensures r.Ok? ==> r.value["has_socials"] == JBool(Truthy(SubField(p.fields, "info", "socials", JNull)))
  {
    if !p.JObj? then Raise(AttributeError)
    else
      var volume :- Nested(p, "volume", "h24", JNum(0));
      var liquidity :- Nested(p, "liquidity", "usd", JStr("Unknown"));
      var h24 :- Get(Lookup(p.fields, "txns", EmptyObj), "h24", EmptyObj);
      var buyers :- Get(h24, "buys", JNum(0));
      var sellers := Lookup(h24.fields, "sells", JNum(0));
      var holders :- Nested(p, "holders", "total", JNum(0));
      var socials :- Nested(p, "info", "socials", JNull);
      Ok(p.fields["volume24h" := volume]["liquidity" := liquidity]["buyers" := buyers]
                 ["sellers" := sellers]["holders" := holders]["has_socials" := JBool(Truthy(socials))])
  }

  /** A pair the CSV bot can normalise without an `AttributeError`. */
  predicate CsvNormalizable(p: Json)
  {
    p.JObj? && DictOrAbsent(p.fields, "volume") && TxnsReadable(p.fields)
  }

  /** The loop body of the CSV bot's `get_token_pairs` on one pair: `volume24h`
      defaults to `None` and `liquidity` keeps the raw value. */
  function NormalizePairCsv(p: Json): (r: Result<Pair>)
    ensures r.Ok? <==> CsvNormalizable(p)
    ensures r.Ok? ==> r.value.Keys == p.fields.Keys + CsvDerivedKeys
    ensures r.Ok? ==> forall k :: k in p.fields && k !in CsvDerivedKeys ==> r.value[k] == p.fields[k]
    ensures r.Ok? ==> r.value["volume24h"] == SubField(p.fields, "volume", "h24", JNull)
    ensures r.Ok? ==> r.value["liquidity"] == Lookup(p.fields, "liquidity", JStr("Unknown"))
    ensures r.Ok? ==> r.value["buyers"] == TxnsField(p.fields, "buys")
    ensures r.Ok? ==> r.value["sellers"] == TxnsField(p.fields, "sells")
  {
    if !p.JObj? then Raise(AttributeError)
    else
      var volume :- Nested(p, "volume", "h24", JNull);
      var liquidity := Lookup(p.fields, "liquidity", JStr("Unknown"));
      var h24 :- Get(Lookup(p.fields, "txns", EmptyObj), "h24", EmptyObj);
      var buyers :- Get(h24, "buys", JNum(0));
      var sellers := Lookup(h24.fields, "sells", JNum(0));
      Ok(p.fields["volume24h" := volume]["liquidity" := liquidity]["buyers" := buyers]["sellers" := sellers])
  }

  /** Which bot's loop body to run. */
  datatype Variant = Postgres | Csv

  function NormalizeWith(v: Variant, p: Json): Result<Pair>
  {
    match v
    case Postgres => NormalizePair(p)
    case Csv => NormalizePairCsv(p)
  }

  /** The `for pair in pairs` loop: every pair normalised in place, in order; the
      first pair that cannot be normalised ends it with `AttributeError`. */
  function NormalizeAll(v: Variant, xs: seq<Json>): (r: Result<seq<Pair>>)
    ensures r.Ok? <==> forall i :: 0 <= i < |xs| ==> NormalizeWith(v, xs[i]).Ok?
    ensures r.Ok? ==> |r.value| == |xs|
    ensures r.Ok? ==> forall i :: 0 <= i < |xs| ==> r.value[i] == NormalizeWith(v, xs[i]).value
    ensures r.Raise? ==> r.exc == AttributeError
  {
    if xs == [] then Ok([])
    else
      var first :- NormalizeWith(v, xs[0]);
      var rest :- NormalizeAll(v, xs[1..]);
      assert forall i :: 1 <= i < |xs| ==> xs[i] == xs[1..][i - 1];
      Ok([first] + rest)
  }

  /** The Postgres bot reads the first element of a list response. */
  function Unwrap(data: Json): Json
  {
    if data.JArr? && |data.items| > 0 then data.items[0] else data
  }

  /** The pair list the Postgres bot's loop runs over, if any: a non-empty list
      under `pairs` of the (unwrapped) dict. */
  function PairList(data: Json): Option<seq<Json>>
  {
    if !Truthy(data) || !Unwrap(data).JObj? then None
    else
      var pairs := Lookup(Unwrap(data).fields, "pairs", JArr([]));
      if pairs.JArr? && |pairs.items| > 0 then Some(pairs.items) else None
  }

  /** The Postgres bot's `get_token_pairs` given the pairs response. */
  function GetTokenPairs(data: Json): (r: Result<seq<Pair>>)
    ensures PairList(data).None? ==> r == Ok([])
    ensures !Truthy(data) ==> r == Ok([])
    ensures Truthy(data) && !Unwrap(data).JObj? ==> r == Ok([])
    ensures Unwrap(data).JObj? && "pairs" !in Unwrap(data).fields ==> r == Ok([])
    ensures Unwrap(data).JObj? && "pairs" in Unwrap(data).fields && Unwrap(data).fields["pairs"] == JArr([]) ==> r == Ok([])
    ensures Unwrap(data).JObj? && "pairs" in Unwrap(data).fields && !Unwrap(data).fields["pairs"].JArr? ==> r == Ok([])
    ensures PairList(data).Some? ==> r == NormalizeAll(Postgres, PairList(data).value)
  {
    if !Truthy(data) then Ok([])
    else
      var d := if data.JArr? then data.items[0] else data;
      if !d.JObj? then Ok([])
      else
        var pairs := Lookup(d.fields, "pairs", JArr([]));
        if pairs.JArr? && pairs.items != [] then NormalizeAll(Postgres, pairs.items)
        else Ok([])
  }

  /** The CSV bot's `get_token_pairs` given the pairs response. It calls
      `data.get` without unwrapping, so a list response raises. When `pairs` is an
      empty string or dict the source returns that falsy value itself; callers only
      test it for truth, so it is modelled as the empty list. */
  function GetTokenPairsCsv(data: Json): (r: Result<seq<Pair>>)
    ensures !Truthy(data) ==> r == Ok([])
    ensures Truthy(data) && !data.JObj? ==> r == Raise(AttributeError)
    ensures data.JObj? && "pairs" !in data.fields ==> r == Ok([])
    ensures data.JObj? && "pairs" in data.fields && data.fields["pairs"].JArr? ==>
              r == NormalizeAll(Csv, data.fields["pairs"].items)
    ensures data.JObj? && "pairs" in data.fields && data.fields["pairs"] == JNull ==> r == Raise(TypeError)
  {
    if !Truthy(data) then Ok([])
    else
      var pairs :- Get(data, "pairs", JArr([]));
      var xs :- IterForGet(pairs);
      NormalizeAll(Csv, xs)
  }

  /** Each returned pair sits at its source position, with the derived fields. */
  lemma PairsKeepPosition(data: Json, i: nat)
    requires GetTokenPairs(data).Ok? && i < |GetTokenPairs(data).value|
    ensures PairList(data).Some? && i < |PairList(data).value|
    ensures GetTokenPairs(data).value[i] == NormalizePair(PairList(data).value[i]).value
  {
  }

  /** A pair with none of the nested objects gets every default:
      zero volume, buyers, sellers and holders, "Unknown" liquidity, no socials. */
  lemma DefaultsWhenAbsent(p: Pair)
    requires forall k :: k in p ==> k !in {"volume", "liquidity", "txns", "holders", "info"}
    ensures NormalizePair(JObj(p)).Ok?
    ensures var q := NormalizePair(JObj(p)).value;
            && q["volume24h"] == JNum(0) && q["liquidity"] == JStr("Unknown")
            && q["buyers"] == JNum(0) && q["sellers"] == JNum(0) && q["holders"] == JNum(0)
            && q["has_socials"] == JBool(false)
  {
  }

  /** `[{"pairs": ...}, ...]` normalises like `{"pairs": ...}`: only the first list element is read. */
  lemma WrappedLikeObject(obj: map<string, Json>, rest: seq<Json>)
    ensures GetTokenPairs(JArr([JObj(obj)] + rest)) == GetTokenPairs(JObj(obj))
  {
  }

  /** A bare list of pair dicts unwraps to its first pair, which has no `pairs`
      key, so no pairs come back: the three response shapes are not equivalent. */
  lemma BareListYieldsNothing(pairs: seq<Json>)
    requires |pairs| > 0 && pairs[0].JObj? && "pairs" !in pairs[0].fields
    ensures GetTokenPairs(JArr(pairs)) == Ok([])
  {
  }

  /** The CSV bot raises on a list response where the Postgres bot unwraps it. */
  lemma CsvRaisesOnList(obj: map<string, Json>)
    requires "pairs" in obj && obj["pairs"].JArr? && obj["pairs"].items != []
    requires forall i :: 0 <= i < |obj["pairs"].items| ==> Normalizable(obj["pairs"].items[i])
    ensures GetTokenPairsCsv(JArr([JObj(obj)])) == Raise(AttributeError)
    ensures GetTokenPairs(JArr([JObj(obj)])).Ok?
    ensures |GetTokenPairs(JArr([JObj(obj)])).value| == |obj["pairs"].items|
  {
  }
}

=== FILE: token_store.dfy ===
/** The Postgres bot's `tokens` and `prices` tables and the statements that write
    them: the upsert of the live loop, `save_token_data` with its market-cap
    ceiling, and the price insert of the sampler. A statement that Postgres or
    psycopg2 rejects is caught by the source and leaves the tables unchanged. */
module TokenStore {
  import opened PyJson

  /** `MAX_MARKET_CAP`: `save_token_data` skips tokens above it. */
  const MAX_MARKET_CAP: int := 100000

  /** A `tokens` row, keyed elsewhere by `token_name`. The market-cap columns are
      integers (`None` is SQL NULL); the other cells keep the value bound to them. */
  datatype TokenRow = TokenRow(
    symbol: Json,
    marketCap: Option<int>,
    firstRecordedMarketCap: Option<int>,
    allTimeHigh: Option<int>,
    pairCreatedAt: Json,
    dexPaidAt: Json,
    holders: Json,
    volume24h: Json,
    hasSocials: Json,
    loggedAt: int)

  /** A `prices` row; the timestamp is the sampling time in seconds. */
  datatype PriceRow = PriceRow(tokenName: Json, tokenAddress: Json, timestamp: int, priceUsd: Json)

  /** Both tables. Rows with a string name are unique by name; a NULL name never
      conflicts, so those rows accumulate in `unnamed`. */
  datatype Db = Db(named: map<string, TokenRow>, unnamed: seq<TokenRow>, prices: seq<PriceRow>)

  /** What a call did to the `tokens` table. */
  datatype Write = Inserted | Updated | Skipped | Failed

  datatype Saved = Saved(db: Db, write: Write)

  /** The values the live loop binds to the upsert. */
  datatype TokenValues = TokenValues(
    name: Json, symbol: Json, marketCap: Json, pairCreatedAt: Json, dexPaidAt: Json,
    holders: Json, volume24h: Json, hasSocials: Json)

  /** psycopg2 adapts scalars; a dict cannot be adapted and a list becomes an ARRAY
      no column here accepts. */
  predicate Scalar(v: Json)
  {
    !v.JArr? && !v.JObj?
  }

  /** The range of a Postgres INTEGER (int4); a value outside it is rejected with
      "integer out of range". */
  predicate Int4(n: int)
  {
    -0x8000_0000 <= n < 0x8000_0000
  }

  /** A value an INTEGER column accepts: a number in range, or NULL. */
  predicate FitsInt(v: Json)
  {
    (v.JNum? && Int4(v.n)) || v.JNull?
  }

  function AsInt(v: Json): Option<int>
    requires FitsInt(v)
  {
    if v.JNum? then Some(v.n) else None
  }

  /** SQL `GREATEST`, which ignores NULL arguments. */
  function Greatest(a: Option<int>, b: Option<int>): Option<int>
  {
    match (a, b)
    case (Some(x), Some(y)) => Some(if x >= y then x else y)
    case (Some(_), None) => a
    case (None, _) => b
  }

  /** Every value of the upsert can be bound. */
  predicate Bindable(v: TokenValues)
  {
    && Scalar(v.symbol) && Scalar(v.pairCreatedAt) && Scalar(v.dexPaidAt)
    && Scalar(v.holders) && Scalar(v.volume24h) && Scalar(v.hasSocials)
  }

  /** The row a first insert creates: first-recorded and all-time-high market caps
      both start at the current market cap. */
  function FreshRow(v: TokenValues, now: int): (row: TokenRow)
    requires FitsInt(v.marketCap)
    ensures row.firstRecordedMarketCap == row.allTimeHigh == row.marketCap == AsInt(v.marketCap)
    ensures row.symbol == v.symbol && row.pairCreatedAt == v.pairCreatedAt && row.dexPaidAt == v.dexPaidAt
    ensures row.holders == v.holders && row.volume24h == v.volume24h && row.hasSocials == v.hasSocials
    ensures row.loggedAt == now
  {
    var mc := AsInt(v.marketCap);
    TokenRow(v.symbol, mc, mc, mc, v.pairCreatedAt, v.dexPaidAt, v.holders, v.volume24h, v.hasSocials, now)
  }

  /** `ON CONFLICT (token_name) DO UPDATE`: market cap, holders and volume are
      replaced, the all-time high becomes the greater of the old one and the new
      market cap, and every other column is kept. */
  function Refresh(prev: TokenRow, v: TokenValues): (row: TokenRow)
    requires v.marketCap.JNum?
    ensures row.marketCap == Some(v.marketCap.n)
    ensures row.allTimeHigh.Some? && row.allTimeHigh.value >= v.marketCap.n
    ensures prev.allTimeHigh.None? ==> row.allTimeHigh == Some(v.marketCap.n)
    ensures prev.allTimeHigh.Some? ==> row.allTimeHigh.value >= prev.allTimeHigh.value
    ensures prev.allTimeHigh.Some? ==> row.allTimeHigh.value == prev.allTimeHigh.value || row.allTimeHigh.value == v.marketCap.n
    ensures row.holders == v.holders && row.volume24h == v.volume24h
    ensures row.firstRecordedMarketCap == prev.firstRecordedMarketCap
    ensures row.symbol == prev.symbol && row.pairCreatedAt == prev.pairCreatedAt
    ensures row.dexPaidAt == prev.dexPaidAt && row.hasSocials == prev.hasSocials
    ensures row.loggedAt == prev.loggedAt
  {
    prev.(marketCap := Some(v.marketCap.n),
         allTimeHigh := Greatest(prev.allTimeHigh, Some(v.marketCap.n)),
         holders := v.holders,
         volume24h := v.volume24h)
  }

  /** The live loop's SELECT, Python-side `max` and upsert. A string name that is
      already stored takes the conflict branch, whose `max(market_cap, ...)` raises
      for a non-number; a NULL name never matches and never conflicts; any other
      name fails the `text = %s` comparison. */
  function Upsert(db: Db, v: TokenValues, now: int): (r: Saved)
    ensures r.db.prices == db.prices
    ensures r.write in {Inserted, Updated, Failed}
    ensures r.write == Failed ==> r.db == db
    ensures !v.name.JStr? && !v.name.JNull? ==> r.write == Failed
    ensures !Bindable(v) ==> r.write == Failed
    ensures r.write == Inserted && v.name.JStr? ==>
              v.name.s !in db.named && FitsInt(v.marketCap) &&
              r.db == db.(named := db.named[v.name.s := FreshRow(v, now)])
    ensures r.write == Inserted && !v.name.JStr? ==>
              v.name.JNull? && FitsInt(v.marketCap) && r.db == db.(unnamed := db.unnamed + [FreshRow(v, now)])
    ensures r.write == Updated ==>
              v.name.JStr? && v.name.s in db.named && v.marketCap.JNum? && Int4(v.marketCap.n) &&
              r.db == db.(named := db.named[v.name.s := Refresh(db.named[v.name.s], v)])
    ensures Bindable(v) && v.name.JStr? && v.name.s in db.named && v.marketCap.JNum? && Int4(v.marketCap.n) ==>
              r.write == Updated
    ensures v.marketCap.JNum? && !Int4(v.marketCap.n) ==> r.write == Failed
    ensures Bindable(v) && (v.name.JNull? || (v.name.JStr? && v.name.s !in db.named)) && FitsInt(v.marketCap) ==>
              r.write == Inserted
  {
    if !Bindable(v) then Saved(db, Failed)
    else match v.name
      case JNull =>
        if FitsInt(v.marketCap) then Saved(db.(unnamed := db.unnamed + [FreshRow(v, now)]), Inserted)
        else Saved(db, Failed)
      case JStr(name) =>
        if name in db.named then
          if v.marketCap.JNum? && Int4(v.marketCap.n) then Saved(db.(named := db.named[name := Refresh(db.named[name], v)]), Updated)
          else Saved(db, Failed)
        else if FitsInt(v.marketCap) then Saved(db.(named := db.named[name := FreshRow(v, now)]), Inserted)
        else Saved(db, Failed)
      case _ => Saved(db, Failed)
  }

  /** Every stored market cap is covered by the all-time high. */
  predicate AthCovers(row: TokenRow)
  {
    row.marketCap.Some? ==> row.allTimeHigh.Some? && row.allTimeHigh.value >= row.marketCap.value
  }

  /** How a stored row may change between two states of the table: it stays, its
      write-once columns are kept, and its all-time high does not fall. */
  predicate Evolves(before: TokenRow, after: TokenRow)
  {
    && after.firstRecordedMarketCap == before.firstRecordedMarketCap
    && after.symbol == before.symbol
    && after.pairCreatedAt == before.pairCreatedAt
    && after.dexPaidAt == before.dexPaidAt
    && after.hasSocials == before.hasSocials
    && after.loggedAt == before.loggedAt
    && (before.allTimeHigh.Some? ==> after.allTimeHigh.Some? && after.allTimeHigh.value >= before.allTimeHigh.value)
  }

  /** Every named row of `before` is still there in `after`, and has only evolved. */
  predicate Grows(before: Db, after: Db)
  {
    && before.named.Keys <= after.named.Keys
    && (forall n :: n in before.named ==> Evolves(before.named[n], after.named[n]))
    && before.unnamed <= after.unnamed
    && after.prices == before.prices
  }

  lemma GrowsTransitive(a: Db, b: Db, c: Db)
    requires Grows(a, b) && Grows(b, c)
    ensures Grows(a, c)
  {
  }

  /** The upsert keeps existing rows' write-once columns, never lowers an
      all-time high, and leaves the written row's all-time high covering its
      market cap. */
  lemma UpsertGrows(db: Db, v: TokenValues, now: int)
    ensures Grows(db, Upsert(db, v, now).db)
    ensures Upsert(db, v, now).write != Failed && v.name.JStr? ==>
              v.name.s in Upsert(db, v, now).db.named && AthCovers(Upsert(db, v, now).db.named[v.name.s])
  {
  }

  /** Every row of the table has an all-time high covering its market cap. */
  predicate AllAthCover(db: Db)
  {
    && (forall n :: n in db.named ==> AthCovers(db.named[n]))
    && (forall i :: 0 <= i < |db.unnamed| ==> AthCovers(db.unnamed[i]))
  }

  /** The upsert keeps every row's all-time high at or above its market cap. */
  lemma UpsertKeepsAthCover(db: Db, v: TokenValues, now: int)
    requires AllAthCover(db)
    ensures AllAthCover(Upsert(db, v, now).db)
  {
    var r := Upsert(db, v, now);
    if r.write == Inserted && !v.name.JStr? {
      forall i | 0 <= i < |r.db.unnamed|
        ensures AthCovers(r.db.unnamed[i])
      {
        if i < |db.unnamed| {
          assert r.db.unnamed[i] == db.unnamed[i];
        }
      }
    }
  }

  /** `save_token_data`, which the live loop never calls: `marketCap` (0 when
      missing) is compared with the ceiling before the `try`, so a non-number raises;
      above the ceiling, or with the name already stored, nothing is written;
      otherwise a row with only name, symbol, market cap and the two timestamps. */
  function SaveTokenData(db: Db, data: map<string, Json>, now: int): (r: Result<Saved>)
    ensures var mc := Lookup(data, "marketCap", JNum(0));
            !mc.JNum? && !mc.JBool? <==> r.Raise?
    ensures r.Ok? ==> r.value.db.prices == db.prices && r.value.write in {Inserted, Skipped, Failed}
    ensures r.Ok? && r.value.write != Inserted ==> r.value.db == db
    ensures var mc := Lookup(data, "marketCap", JNum(0));
            mc.JNum? && mc.n > MAX_MARKET_CAP ==> r == Ok(Saved(db, Skipped))
    ensures var name := Lookup(data, "tokenName", JNull);
            r.Ok? && name.JStr? && name.s in db.named ==> r.value.db == db
    ensures r.Ok? && r.value.write == Inserted ==>
              && Lookup(data, "marketCap", JNum(0)).JNum?
              && Lookup(data, "marketCap", JNum(0)).n <= MAX_MARKET_CAP
              && Int4(Lookup(data, "marketCap", JNum(0)).n) && CeilingBindable(data)
              && var name := Lookup(data, "tokenName", JNull);
              && (name.JStr? ==>
                    (name.s !in db.named && r.value.db == db.(named := db.named[name.s := CeilingRow(data, now)])))
              && (!name.JStr? ==> name.JNull? && r.value.db == db.(unnamed := db.unnamed + [CeilingRow(data, now)]))
    ensures var mc := Lookup(data, "marketCap", JNum(0));
            var name := Lookup(data, "tokenName", JNull);
            && mc.JNum? && Int4(mc.n) && mc.n <= MAX_MARKET_CAP && CeilingBindable(data)
            && name.JStr? && name.s !in db.named ==>
              r == Ok(Saved(db.(named := db.named[name.s := CeilingRow(data, now)]), Inserted))
    ensures var mc := Lookup(data, "marketCap", JNum(0));
            && mc.JNum? && Int4(mc.n) && mc.n <= MAX_MARKET_CAP && CeilingBindable(data)
            && Lookup(data, "tokenName", JNull).JNull? ==>
              r == Ok(Saved(db.(unnamed := db.unnamed + [CeilingRow(data, now)]), Inserted))
  {
    var mc := Lookup(data, "marketCap", JNum(0));
    var over :- GreaterThan(mc, MAX_MARKET_CAP);
    if over then Ok(Saved(db, Skipped))
    else
      var name := Lookup(data, "tokenName", JNull);
      var cellsBind := mc.JNum? && Int4(mc.n) && CeilingBindable(data);
      match name
      case JStr(s) =>
        if s in db.named then Ok(Saved(db, Skipped))
        else if cellsBind then Ok(Saved(db.(named := db.named[s := CeilingRow(data, now)]), Inserted))
        else Ok(Saved(db, Failed))
      case JNull =>
        if cellsBind then Ok(Saved(db.(unnamed := db.unnamed + [CeilingRow(data, now)]), Inserted))
        else Ok(Saved(db, Failed))
      case _ => Ok(Saved(db, Failed))
  }

  /** The symbol and the two timestamps `save_token_data` binds can be adapted. */
  predicate CeilingBindable(data: map<string, Json>)
  {
    && Scalar(Lookup(data, "tokenSymbol", JNull))
    && Scalar(Lookup(data, "pairCreatedAt", JNull)) && Scalar(Lookup(data, "dexPaidAt", JNull))
  }

  /** Once `save_token_data` has inserted a name, a later save of the same name
      (with a market cap that compares) is skipped and changes nothing: the
      duplicate check of the SELECT. */
  lemma SaveThenSkips(db: Db, first: map<string, Json>, second: map<string, Json>, t1: int, t2: int)
    requires SaveTokenData(db, first, t1).Ok? && SaveTokenData(db, first, t1).value.write == Inserted
    requires Lookup(first, "tokenName", JNull).JStr?
    requires Lookup(second, "tokenName", JNull) == Lookup(first, "tokenName", JNull)
    requires GreaterThan(Lookup(second, "marketCap", JNum(0)), MAX_MARKET_CAP).Ok?
    ensures var after := SaveTokenData(db, first, t1).value.db;
            after.named[Lookup(first, "tokenName", JNull).s] == CeilingRow(first, t1)
    ensures var after := SaveTokenData(db, first, t1).value.db;
            SaveTokenData(after, second, t2).Ok? && SaveTokenData(after, second, t2).value.db == after
  {
  }

  /** The row `save_token_data` inserts: the five columns it names, NULL elsewhere. */
  function CeilingRow(data: map<string, Json>, now: int): (row: TokenRow)
    ensures row.firstRecordedMarketCap.None? && row.allTimeHigh.None?
    ensures row.symbol == Lookup(data, "tokenSymbol", JNull)
    ensures Lookup(data, "marketCap", JNum(0)).JNum? ==> row.marketCap == Some(Lookup(data, "marketCap", JNum(0)).n)
    ensures row.pairCreatedAt == Lookup(data, "pairCreatedAt", JNull)
    ensures row.dexPaidAt == Lookup(data, "dexPaidAt", JNull)
    ensures row.holders == JNull && row.volume24h == JNull && row.hasSocials == JNull
    ensures row.loggedAt == now
  {
    var mc := Lookup(data, "marketCap", JNum(0));
    TokenRow(Lookup(data, "tokenSymbol", JNull), if mc.JNum? then Some(mc.n) else None, None, None,
             Lookup(data, "pairCreatedAt", JNull), Lookup(data, "dexPaidAt", JNull), JNull, JNull, JNull, now)
  }

  /** The ceiling is strict: a market cap of exactly `MAX_MARKET_CAP` is stored, one more is not. */
  lemma CeilingIsStrict(db: Db, name: string, now: int)
    requires name !in db.named
    ensures SaveTokenData(db, map["tokenName" := JStr(name), "marketCap" := JNum(MAX_MARKET_CAP)], now).value.write == Inserted
    ensures SaveTokenData(db, map["tokenName" := JStr(name), "marketCap" := JNum(MAX_MARKET_CAP)], now).value.db.named[name].marketCap
         == Some(MAX_MARKET_CAP)
    ensures SaveTokenData(db, map["tokenName" := JStr(name), "marketCap" := JNum(MAX_MARKET_CAP + 1)], now)
         == Ok(Saved(db, Skipped))
  {
  }

  /** A decimal literal as `price_usd REAL` reads it: a sign, digits and at most one
      point, with at least one digit (exponents, blanks, `NaN` and `Infinity`, which
      Postgres also accepts, are left out). */
  predicate DecimalText(s: string)
  {
    var body := Unsigned(s);
    && (exists i :: 0 <= i < |body| && IsDigit(body[i]))
    && (forall i :: 0 <= i < |body| ==> IsDigit(body[i]) || body[i] == '.')
    && (forall i, j :: 0 <= i < j < |body| && body[i] == '.' ==> body[j] != '.')
  }

  /** A value the REAL column accepts: NULL, a number, or decimal text. */
  predicate FitsReal(v: Json)
  {
    v.JNull? || v.JNum? || (v.JStr? && DecimalText(v.s))
  }

  /** The sampler's `INSERT INTO prices`: one row, or none when a value cannot be stored. */
  function InsertPrice(prices: seq<PriceRow>, name: Json, address: Json, timestamp: int, price: Json): (r: seq<PriceRow>)
    ensures prices <= r && |r| <= |prices| + 1
    ensures |r| == |prices| + 1 <==> Scalar(name) && Scalar(address) && FitsReal(price)
    ensures |r| == |prices| + 1 ==> r[|prices|] == PriceRow(name, address, timestamp, price)
    ensures price == JStr("Unknown") ==> r == prices
  {
    UnknownIsNotReal();
    if Scalar(name) && Scalar(address) && FitsReal(price) then prices + [PriceRow(name, address, timestamp, price)]
    else prices
  }

  /** The placeholder price "Unknown" is not a number the REAL column accepts. */
  lemma UnknownIsNotReal()
    ensures !FitsReal(JStr("Unknown"))
  {
    assert Unsigned("Unknown") == "Unknown";
    assert !IsDigit("Unknown"[0]);
  }

  /** The columns the live loop's SELECT and INSERT name. */
  const UPSERT_COLUMNS: set<string> := {"token_name", "symbol", "market_cap", "first_recorded_market_cap",
    "all_time_high", "pair_created_at", "dex_paid_at", "holders", "volume_24h", "has_socials"}

  /** A `tokens` table's columns, and whether `token_name` carries the unique key
      that `ON CONFLICT (token_name)` needs. */
  datatype Schema = Schema(columns: set<string>, uniqueName: bool)

  /** The table `init_db` creates: seven columns and no unique key on the name. */
  const INIT_DB_SCHEMA: Schema := Schema({"id", "token_name", "symbol", "market_cap", "pair_created_at",
    "dex_paid_at", "logged_at"}, false)

  /** The table the upsert is written for: `init_db`'s columns, the five more it
      names, and a unique name. */
  const EXPECTED_SCHEMA: Schema := Schema(INIT_DB_SCHEMA.columns + UPSERT_COLUMNS, true)

  /** Postgres accepts the live loop's statements only on a table that has every
      column they name and a unique key for the conflict target. */
  predicate Accepts(schema: Schema)
  {
    UPSERT_COLUMNS <= schema.columns && schema.uniqueName
  }

  /** The live loop's write against a table of `schema`: the statement Postgres
      rejects raises, the error is caught, and nothing changes. */
  function UpsertOn(schema: Schema, db: Db, v: TokenValues, now: int): (r: Saved)
    ensures r.db.prices == db.prices
    ensures !Accepts(schema) ==> r == Saved(db, Failed)
  {
    if Accepts(schema) then Upsert(db, v, now) else Saved(db, Failed)
  }

  /** As written: on the table `init_db` creates, no detected token is ever stored,
      since `first_recorded_market_cap` does not exist there. */
  lemma InitDbSchemaStoresNothing(db: Db, v: TokenValues, now: int)
    ensures "first_recorded_market_cap" in UPSERT_COLUMNS && "first_recorded_market_cap" !in INIT_DB_SCHEMA.columns
    ensures UpsertOn(INIT_DB_SCHEMA, db, v, now) == Saved(db, Failed)
  {
    assert "first_recorded_market_cap" !in INIT_DB_SCHEMA.columns;
  }

  /** Corrected: on the table the upsert is written for, the write is the
      modelled upsert, so a new bindable token is inserted with its fresh row. */
  lemma ExpectedSchemaUpserts(db: Db, v: TokenValues, now: int)
    ensures UpsertOn(EXPECTED_SCHEMA, db, v, now) == Upsert(db, v, now)
    ensures Bindable(v) && v.name.JStr? && v.name.s !in db.named && FitsInt(v.marketCap) ==>
              UpsertOn(EXPECTED_SCHEMA, db, v, now) == Saved(db.(named := db.named[v.name.s := FreshRow(v, now)]), Inserted)
  {
    assert Accepts(EXPECTED_SCHEMA);
  }
}

=== FILE: ttl_cache.dfy ===
/** The `already_paid_dex_tokens` cache: token address to insertion time, where an
    entry counts as present for `TTL_SECONDS` after it was written. */
module TtlCache {
  import opened PyJson

  /** `TTLCache(maxsize=500000, ttl=3600)`. */
  const TTL_SECONDS: int := 3600

  /** Key to the time (seconds) it was last set. */
  type Cache = map<Json, int>

  /** `key in cache` at time `now`: set, and not yet expired. */
  predicate Contains(cache: Cache, key: Json, now: int)
  {
    key in cache && now < cache[key] + TTL_SECONDS
  }

  /** `cache[key] = value` at time `now`: the entry is (re)started; no other key changes. */
  function Insert(cache: Cache, key: Json, now: int): (c: Cache)
    ensures c.Keys == cache.Keys + {key}
    ensures forall t :: Contains(c, key, t) <==> t < now + TTL_SECONDS
    ensures forall k, t :: k != key ==> (Contains(c, k, t) <==> Contains(cache, k, t))
  {
    cache[key := now]
  }

  /** An entry written at `t0` is present one second before its TTL runs out and
      absent from the moment it does. */
  lemma ExpiryBoundary(cache: Cache, key: Json, t0: int)
    ensures Contains(Insert(cache, key, t0), key, t0 + TTL_SECONDS - 1)
    ensures !Contains(Insert(cache, key, t0), key, t0 + TTL_SECONDS)
    ensures !Contains(Insert(cache, key, t0), key, t0 + TTL_SECONDS + 1)
  {
  }
}
